=== FILE: README.md ===
# Career guidance app — a Dafny model of its state logic

The career guidance app is a React single-page application. Most of it is markup, but
its components hold a set of small deterministic state transitions and queries, and
this project models them:

- the session controller: a navigation history stack, a saved-career toggle and an
  indexed answer array;
- the screen registry, which maps only some screen tags to components;
- the five-question quiz stepper;
- the job-application tracker: a guarded add, a status update, status counts, tabs
  and a forward-only status ladder;
- the notifications' read state, with an unread count and time-of-day grouping;
- the AI advisor's keyword classifier and its send/reply cycle;
- mentor search and the select → book → confirm booking steps;
- career search, the match-score colour band and opening a career;
- the progress screen's points, badge and saved-career list;
- the social-sharing text builder, the share dispatch and the sharing hook;
- the analytics dashboard's camelCase-key-to-label transform;
- the shipped catalogue data (careers, mentors, questions) as concrete instances.

Everything is an immutable datatype with pure functions. Each source file is one
module:

| module | file |
|---|---|
| `AppContext` | `app_context.dfy` |
| `Registry` | `registry.dfy` |
| `TestStepper` | `test_stepper.dfy` |
| `JobTracker` | `job_tracker.dfy` |
| `Notifications` | `notifications.dfy` |
| `AiAdvisor` | `ai_advisor.dfy` |
| `Mentorship` | `mentorship.dfy` |
| `Recommendations` | `recommendations.dfy` |
| `Progress` | `progress.dfy` |
| `SocialSharing` | `social_sharing.dfy` |
| `AnalyticsLabels` | `analytics_labels.dfy` |
| `AppData` | `app_data.dfy` |

Three support modules back them:

- `Wrappers` holds `Option`.
- `Seqs` holds an order-preserving filter, counting and the subsequence relation.
- `Text` holds ASCII case mapping, substring search, JavaScript whitespace and `trim`.

User interactions are `Event` or `Step` datatypes, replayed by `Play`/`Run`.
Invariants are proved for every event sequence.

A few behaviours of the application are worth knowing when reading the model:

- `goBack` exists, but no component on screen calls it. The header's back arrow
  navigates to a named screen, and that pushes onto the history
  (`src/components/shared/header.tsx:30-34`). The registry model therefore allows
  only pushes from registered screens, plus `goBack`.
- The registry maps "mentorship" and "progress" to a placeholder, like the other
  later entries. So the mentorship screen and the progress screen are not reached
  through the registry. Their logic is modelled as it is written.
- The notifications' "Today" and "Earlier" groups are not a partition. A time text
  containing "Today" also contains "day", so it appears in both groups. A text such
  as "just now" appears in neither.
- Keyword matching is by substring, so "repay" is answered as a salary question.
- The AI advisor's send button is disabled while the input is blank or the typing
  indicator is on, but the Enter key is not held back by the indicator. Several
  replies can therefore be pending at once; the model keeps them in a
  first-in-first-out queue. Because the first reply to arrive turns the indicator
  off, the button is enabled again while later replies are still queued.

## Model

| member | source | states |
|---|---|---|
| Text.Lower | src/components/screens/ai-advisor-screen.tsx:62 | `toLowerCase` keeps the length and lower-cases each character. |
| Text.Trim | src/components/screens/ai-advisor-screen.tsx:77 | `trim` returns a stretch of the input, after the leading white space, that neither starts nor ends with white space. |
| Text.TrimDropsOnlyWhitespace | src/components/screens/ai-advisor-screen.tsx:77 | Everything `trim` removes, before and after the result, is white space; together with the ends of the result, this fixes the result as the stretch from the first to the last character that is not white space. |
| AppContext.Initial | src/contexts/app-context.tsx:75-83 | The app starts on onboarding, with history [onboarding], no answers, nothing saved, progress 60 and light mode. The current screen is the last entry of the history. |
| AppContext.Navigate | src/contexts/app-context.tsx:85-88 | Appends the screen to the history and makes it current, with no deduplication. The history grows by exactly one, and nothing else changes. |
| AppContext.GoBack | src/contexts/app-context.tsx:90-96 | Above the root, drops exactly the last entry and makes the new last entry current. At the root it changes nothing, and it never empties the history. |
| AppContext.GoBackTimes | src/contexts/app-context.tsx:90-96 | Going back k times keeps a prefix of the history of length max(1, n - k), so repeated back at the root never fails. |
| AppContext.NavigateThenGoBack | src/contexts/app-context.tsx:85-96 | Navigating and then going back restores the previous state exactly. |
| AppContext.NavigationScenarios | src/contexts/app-context.tsx:75-96 | From the start: home gives history [onboarding, home]; home then test then back is on home; three backs leave the initial state. |
| AppContext.ToggleDarkMode | src/contexts/app-context.tsx:98-100 | Flips dark mode and changes nothing else. |
| AppContext.UpdateProgress | src/contexts/app-context.tsx:112-114 | Sets the progress value and changes nothing else. |
| AppContext.SetSelectedCareer | src/contexts/app-context.tsx:78 | Sets the selected career and changes nothing else. |
| AppContext.SetCurrentQuestion | src/contexts/app-context.tsx:77 | Sets the question index and changes nothing else. |
| AppContext.SetAnswer | src/contexts/app-context.tsx:102-106 | Writing past the end pads the array with holes up to the index. The index then holds the answer, and every other index is unchanged. |
| AppContext.AddTestAnswer | src/contexts/app-context.tsx:102-106 | Stores the answer at the current question's index; every other stored answer and every other session field is unchanged. |
| AppContext.StoredAnswer | src/components/screens/test-screen.tsx:25 | The stored answer of question i, or "" for a hole or an index past the end, as the fallback to "" on a missing entry gives. |
| AppContext.ToggleSaved | src/contexts/app-context.tsx:108-110 | A present id is removed everywhere: the result is a subsequence of the list without the id, one entry shorter per copy of the id, so every other entry, repeats included, is kept in order. An absent id is appended once. Membership of every other id is unchanged. |
| AppContext.ToggleSavedCareer | src/contexts/app-context.tsx:108-110 | The id's saved state flips; nothing else in the session changes. |
| AppContext.ToggleTwiceRestores | src/contexts/app-context.tsx:108-110 | Toggling an absent id twice returns the original list exactly. |
| AppContext.ToggleKeepsNoDuplicates | src/contexts/app-context.tsx:108-110 | A duplicate-free saved list stays duplicate-free. |
| Registry.Lookup | src/components/career-guidance-app.tsx:12-23 | A component exists exactly for the eight registered tags. Every entry after the first four is the placeholder. |
| Registry.LookupIsPartial | src/components/career-guidance-app.tsx:12-23 | notifications, ai-advisor, job-tracker and analytics have no entry. |
| Registry.RenderedDependsOnlyOnCurrentScreen | src/components/career-guidance-app.tsx:10-23 | Two sessions on the same screen render the same component. |
| Registry.StepStaysRegistered | src/components/career-guidance-app.tsx:12-21 | One allowed step keeps the session valid and every history entry registered. Allowed steps are a navigation a registered screen offers, or going back. |
| Registry.RunStaysRegistered | src/components/career-guidance-app.tsx:12-23 | The same holds for any run of allowed steps, and the current screen always has a component. |
| Registry.ReachableScreensAreRegistered | src/components/career-guidance-app.tsx:12-23 | Every screen reachable from the start through the shown controls has a registry entry. |
| TestStepper.QuestionCountIsFive | src/data/app-data.ts:112-148 | The quiz has five questions. |
| TestStepper.Mount | src/components/screens/test-screen.tsx:25 | Opening the quiz restores the stored answer of the current question, or "" if there is none. |
| TestStepper.Next | src/components/screens/test-screen.tsx:27-40 | With nothing selected it changes nothing. Otherwise it records the answer for the current question and keeps every other stored answer. Before the last question it moves on, restores the next stored answer and changes nothing else in the session. At the last question it sets progress 85 and navigates to recommendations, keeping the index, the selection and every other session field. |
| TestStepper.Previous | src/components/screens/test-screen.tsx:42-47 | At index 0 it changes nothing. Otherwise it moves back one and restores that question's stored answer. |
| TestStepper.IndexStaysInRange | src/components/screens/test-screen.tsx:27-47 | From any in-range index, any sequence of picks, Next and Previous keeps the index in range. |
| TestStepper.IndexStaysInRangeFromStart | src/components/screens/test-screen.tsx:27-47 | The same holds from a fresh quiz at index 0. |
| TestStepper.AnswerInTurnFrom | src/components/screens/test-screen.tsx:27-40 | Answering the remaining questions in turn extends the stored answers with them, then lands on recommendations with progress 85. |
| TestStepper.AnswerAllQuestions | src/components/screens/test-screen.tsx:27-40 | Answering all five questions stores entry i at index i. It ends on recommendations with progress 85. |
| JobTracker.AddApplication | src/components/screens/job-tracker-screen.tsx:108-128 | Without a company and position nothing changes. Otherwise one application built from the form is prepended, the old list follows in order, and the form is reset to applied/medium and closed. |
| JobTracker.AddUpdatesStats | src/components/screens/job-tracker-screen.tsx:108-152 | After an add, the total is one higher, the count of the form's status is one higher and every other status count is unchanged. |
| JobTracker.UpdateStatus | src/components/screens/job-tracker-screen.tsx:130-134 | Only entries with the id get the new status and date. The length and all other entries are unchanged. |
| JobTracker.UpdateStatusIdempotent | src/components/screens/job-tracker-screen.tsx:130-134 | Repeating the update changes only the date. |
| JobTracker.TallyCounts | src/components/screens/job-tracker-screen.tsx:137-145 | The reduce over the list adds, for each status, the number of entries with that status. |
| JobTracker.GetStatusStats | src/components/screens/job-tracker-screen.tsx:136-152 | The total is the list length. The applied, interview, offer and rejected figures each count the entries with that status. |
| JobTracker.StatsAddUp | src/components/screens/job-tracker-screen.tsx:136-152 | The four figures plus the withdrawn count, which the statistics do not return, add up to the total. |
| JobTracker.TabCountsMatchStats | src/components/screens/job-tracker-screen.tsx:318-385 | The Active tab lists interview + offer entries, the Applied tab the applied figure, the Offers tab the offer figure. |
| JobTracker.CardAction | src/components/screens/job-tracker-screen.tsx:465-474 | A card has a status button exactly for applied and interview, and it moves one rung up. |
| JobTracker.ActiveTab | src/components/screens/job-tracker-screen.tsx:351 | Exactly the interview and offer entries, in list order. |
| JobTracker.AppliedTab | src/components/screens/job-tracker-screen.tsx:364 | Exactly the applied entries, in list order. |
| JobTracker.OffersTab | src/components/screens/job-tracker-screen.tsx:377 | Exactly the offer entries, in list order. |
| JobTracker.ClickCard | src/components/screens/job-tracker-screen.tsx:465-474 | On an applied or interview card, every entry with its id moves one rung up with today's date and nothing else changed. Other entries, and the whole list for a card without a button, are unchanged. |
| JobTracker.CardClickMovesForward | src/components/screens/job-tracker-screen.tsx:465-474 | Clicking a card's button moves only that card one rung forward. A card without a button leaves the list unchanged. |
| JobTracker.InitialStats | src/components/screens/job-tracker-screen.tsx:57-95 | The starting list has three entries: one applied, one interview, one offer and no rejection. |
| Notifications.UnreadTab | src/components/screens/notifications-screen.tsx:177-178 | Lists exactly the unread notifications, in their original order. |
| Notifications.UnreadCount | src/components/screens/notifications-screen.tsx:75 | The number of unread notifications, which equals the length of the Unread tab. |
| Notifications.MarkAsRead | src/components/screens/notifications-screen.tsx:79-81 | Only entries with the id become read. The length and all other entries are unchanged. |
| Notifications.MarkAllAsRead | src/components/screens/notifications-screen.tsx:83-85 | Every entry becomes read and nothing else changes. |
| Notifications.MarkAsReadIdempotent | src/components/screens/notifications-screen.tsx:79-81 | Marking the same id twice is the same as once. |
| Notifications.MarkAllAsReadIdempotent | src/components/screens/notifications-screen.tsx:83-85 | Marking all twice is the same as once. |
| Notifications.MarkAllClearsCount | src/components/screens/notifications-screen.tsx:75-85 | After marking all, the unread count is 0. |
| Notifications.MarkAsReadCount | src/components/screens/notifications-screen.tsx:75-81 | Marking an id lowers the unread count by exactly the number of unread entries with that id. |
| Notifications.UnreadCountPositive | src/components/screens/notifications-screen.tsx:75 | The count is positive exactly when some notification is unread. |
| Notifications.ShowsMarkAllControl | src/components/screens/notifications-screen.tsx:93-99 | The "Mark all read" control is shown exactly when some notification is unread. |
| Notifications.GroupsDoNotPartition | src/components/screens/notifications-screen.tsx:76-77 | A "Today" item is in both groups, and a "just now" item is in neither. |
| Notifications.TodayGroup | src/components/screens/notifications-screen.tsx:76 | Exactly the entries whose time includes "hours" or "Today", in order. |
| Notifications.EarlierGroup | src/components/screens/notifications-screen.tsx:77 | Exactly the entries whose time includes "day" or "week", in order. |
| Notifications.FirstIsToday | src/components/screens/notifications-screen.tsx:28-77 | The first shipped notification, "2 hours ago", is in Today only. |
| Notifications.DaysAgoIsEarlier | src/components/screens/notifications-screen.tsx:76-77 | "N day(s) ago" texts are Earlier, not Today. |
| Notifications.InitialGrouping | src/components/screens/notifications-screen.tsx:28-77 | For the shipped list, Today is the first item, Earlier is the rest, and two are unread. |
| Notifications.ClickCard | src/components/screens/notifications-screen.tsx:244-247 | Clicking a card always marks it read. Only an actionable card in a section with an action navigates; otherwise the session is unchanged. |
| AiAdvisor.Classify | src/components/screens/ai-advisor-screen.tsx:61-74 | The default topic is chosen exactly when none of the eleven keywords occurs in the lowercased message. The career topic is chosen exactly when a career keyword occurs. |
| AiAdvisor.FirstMatch | src/components/screens/ai-advisor-screen.tsx:63-72 | Returns the first keyword group the message mentions; no earlier group is mentioned. |
| AiAdvisor.ClassifyIsFirstMatch | src/components/screens/ai-advisor-screen.tsx:63-72 | The topic is that of the first group in the order career, skills, interview, salary, else the default. |
| AiAdvisor.ClassifyIgnoresCase | src/components/screens/ai-advisor-screen.tsx:62 | Upper- or lower-casing the message does not change the topic. |
| AiAdvisor.ResponseTextInjective | src/components/screens/ai-advisor-screen.tsx:48-59 | The five responses are pairwise different. |
| AiAdvisor.GetAIResponse | src/components/screens/ai-advisor-screen.tsx:61-74 | Always one of the five fixed responses. It is the default exactly when no keyword occurs. |
| AiAdvisor.Send | src/components/screens/ai-advisor-screen.tsx:76-91 | Whitespace-only input changes nothing. Otherwise exactly one user message with the input is appended, the input is cleared, typing starts and the text is queued for a reply. |
| AiAdvisor.ClickSend | src/components/screens/ai-advisor-screen.tsx:236 | The send button does nothing while the typing indicator is on; otherwise it sends, and a blank input is then left to the guard in `Send`. |
| AiAdvisor.DeliverReply | src/components/screens/ai-advisor-screen.tsx:91-106 | With nothing queued it changes nothing. Otherwise it appends one AI message answering the oldest queued text with the four follow-ups, and stops typing. |
| AiAdvisor.SuggestionClick | src/components/screens/ai-advisor-screen.tsx:109-111 | A suggestion replaces the input and nothing else. |
| AiAdvisor.SendThenReply | src/components/screens/ai-advisor-screen.tsx:76-106 | The reply answers the text as submitted, even if the input was edited in between. |
| AiAdvisor.SendAddsOnePending | src/components/screens/ai-advisor-screen.tsx:76-91 | A send adds at most one message, and queues exactly as many replies as messages it adds. |
| AiAdvisor.InitialBalanced | src/components/screens/ai-advisor-screen.tsx:21-35 | The chat starts with one AI greeting and nothing pending, which is balanced. |
| AiAdvisor.ApplyKeepsBalance | src/components/screens/ai-advisor-screen.tsx:76-111 | Every event keeps the balance: user messages + 1 = AI messages + pending replies, and typing implies a pending reply. |
| AiAdvisor.PlayKeepsBalance | src/components/screens/ai-advisor-screen.tsx:76-111 | The balance holds after any sequence of events. |
| AiAdvisor.RepliesNeverOutnumberQuestions | src/components/screens/ai-advisor-screen.tsx:76-111 | From the start, AI messages never exceed user messages + 1. |
| AiAdvisor.CareerPromptIsCareer | src/components/screens/ai-advisor-screen.tsx:114 | "What careers match my profile?" is a career question. |
| AiAdvisor.SkillsPromptIsSkills | src/components/screens/ai-advisor-screen.tsx:115 | "What skills should I develop?" is a skills question. |
| AiAdvisor.MentorPromptIsDefault | src/components/screens/ai-advisor-screen.tsx:116 | "Help me find the right mentor" matches no keyword and gets the default answer. |
| AiAdvisor.InterviewPromptIsInterview | src/components/screens/ai-advisor-screen.tsx:117 | "How should I prepare for interviews?" is an interview question. |
| AiAdvisor.RepayIsSalary | src/components/screens/ai-advisor-screen.tsx:69-70 | "repay" contains "pay", so it is a salary question. |
| AiAdvisor.QuickActionResponses | src/components/screens/ai-advisor-screen.tsx:113-118 | The four quick actions get the career, skills, default and interview responses. |
| Mentorship.FilterMentors | src/components/screens/mentorship-screen.tsx:36-41 | A mentor is kept exactly when the lowercased term occurs in the lowercased name, role or an expertise. The result keeps the list's order. |
| Mentorship.EmptySearchKeepsAll | src/components/screens/mentorship-screen.tsx:36-41 | An empty term keeps every mentor in order. |
| Mentorship.LeadershipSearch | src/data/app-data.ts:65-110 | Searching "leadership" yields exactly Marcus Johnson and David Kim. |
| Mentorship.SelectMentor | src/components/screens/mentorship-screen.tsx:52-55 | Selects the mentor, moves to the book step, and changes nothing else. |
| Mentorship.BookSession | src/components/screens/mentorship-screen.tsx:57-70 | Without a mentor, a time or a goal nothing changes. Otherwise exactly one upcoming session with those details is appended and the step becomes confirm. |
| Mentorship.BackToMentors | src/components/screens/mentorship-screen.tsx:72-77 | Returns to select and clears the mentor, time and goal. It keeps the session type, the booked sessions and the search. |
| Mentorship.ViewOf | src/components/screens/mentorship-screen.tsx:79-109 | The confirm view is shown exactly on the confirm step. The booking view needs the book step and a selected mentor. |
| Mentorship.InitialConsistent | src/components/screens/mentorship-screen.tsx:28-34 | The starting booking state is consistent. |
| Mentorship.ApplyKeepsConsistent | src/components/screens/mentorship-screen.tsx:52-77 | Every control the current view offers keeps the state consistent: each booked session is upcoming, at an available slot, and has a goal. |
| Mentorship.PlayKeepsConsistent | src/components/screens/mentorship-screen.tsx:52-77 | The same holds for any sequence of offered controls. |
| Mentorship.UnavailableSlotNeverBooked | src/components/screens/mentorship-screen.tsx:171-177 | The unavailable "Today 4:00 PM" slot is never booked. |
| Mentorship.BookingScenario | src/components/screens/mentorship-screen.tsx:52-79 | Choosing a mentor, a slot and a goal, then booking, reaches confirm with one booked session. |
| Recommendations.SearchCareers | src/components/screens/recommendations-screen.tsx:21-29 | A career is kept exactly when the lowercased term occurs in its title, company or a tag. The result keeps catalogue order, and its length is the number of matches. |
| Recommendations.HandleSearch | src/components/screens/recommendations-screen.tsx:21-30 | Records the term and shows exactly the matching catalogue careers, in order. |
| Recommendations.SearchForgetsPrevious | src/components/screens/recommendations-screen.tsx:19-29 | The result depends on the term alone, not on the previous result. |
| Recommendations.SearchTwice | src/components/screens/recommendations-screen.tsx:19-29 | Two searches in a row equal the second search alone. |
| Recommendations.EmptySearchShowsAll | src/components/screens/recommendations-screen.tsx:21-29 | An empty term shows the whole catalogue in order. |
| Recommendations.TechSearchKeepsAll | src/data/app-data.ts:3-63 | Every career is tagged "Tech", so searching "tech" keeps all four. |
| Recommendations.FoundCountAfterSearch | src/components/screens/recommendations-screen.tsx:71 | The "found" badge equals the number of matching careers. |
| Recommendations.MatchBand | src/components/screens/recommendations-screen.tsx:100 | Green exactly at 90 or more, yellow exactly from 80 to 89, orange below 80. |
| Recommendations.MatchBandMonotone | src/components/screens/recommendations-screen.tsx:100 | A higher score never gets a lower band. |
| Recommendations.CatalogueBands | src/data/app-data.ts:3-63 | The four careers are green, yellow, yellow and orange. |
| Recommendations.ClickHeart | src/components/screens/recommendations-screen.tsx:111-114 | The heart flips its career's saved state and no other career's. |
| Recommendations.OpenCareer | src/components/screens/recommendations-screen.tsx:32-36 | Selects the career, then pushes career-detail. Nothing else changes. |
| Recommendations.OpenCareerThenBack | src/components/screens/recommendations-screen.tsx:32-36 | Going back after opening returns to the previous screen and history, with the career still selected. |
| Progress.SumFrom | src/components/screens/progress-screen.tsx:82 | The left-to-right reduce returns its start value plus the points of every entry. |
| Progress.FilterThenSum | src/components/screens/progress-screen.tsx:82 | Filtering the unlocked achievements and summing with reduce gives the sum of the unlocked points. |
| Progress.TotalPoints | src/components/screens/progress-screen.tsx:82 | The total is the sum of the points of unlocked achievements. |
| Progress.UnlockAddsPoints | src/components/screens/progress-screen.tsx:82 | Unlocking one more achievement adds exactly its points. |
| Progress.UnlockedBadge | src/components/screens/progress-screen.tsx:130 | Shows the unlocked count over the total count. |
| Progress.ShippedPoints | src/components/screens/progress-screen.tsx:17-82 | The shipped achievements are worth 450 points. |
| Progress.ShippedBadge | src/components/screens/progress-screen.tsx:17-68 | The shipped badge reads 3/5. |
| Progress.SavedCareersList | src/components/screens/progress-screen.tsx:80 | Exactly the catalogue careers whose id is saved, in catalogue order. |
| Progress.SavedListDependsOnIdSet | src/components/screens/progress-screen.tsx:80 | The order and repetition of saved ids do not matter. |
| Progress.SavedListNoDuplicates | src/components/screens/progress-screen.tsx:80 | The list has no duplicates, even when an id is saved twice. |
| Progress.SavedTabCount | src/components/screens/progress-screen.tsx:120 | The Saved tab count is the number of catalogue careers whose id is saved. |
| Progress.SavedListOfFour | src/components/screens/progress-screen.tsx:80 | In any catalogue of four careers with ids 1 to 4, saved ids [2, 2, 1] list the first two careers once each, in catalogue order. |
| Progress.SavedListExample | src/components/screens/progress-screen.tsx:80 | Saved ids [2, 2, 1] list careers 1 and 2 once each, in catalogue order. |
| Progress.ClickSavedCareer | src/components/screens/progress-screen.tsx:203-206 | Selects the career and pushes career-detail, keeping the session valid and every other field unchanged, as a recommendation card does. |
| SocialSharing.BaseText | src/components/ui/social-sharing.tsx:42 | The custom message if it is non-empty, otherwise the description. |
| SocialSharing.ShareText | src/components/ui/social-sharing.tsx:41-57 | Every platform's text starts with the base text. Any platform other than the four is the base text alone. |
| SocialSharing.InstagramIgnoresUrl | src/components/ui/social-sharing.tsx:52-53 | The Instagram text is the same whatever the link. |
| SocialSharing.LinkedInFacebookOmitHashtags | src/components/ui/social-sharing.tsx:48-51 | The LinkedIn and Facebook texts do not contain the hashtags, unless the message or link has a "#". |
| SocialSharing.TwitterInstagramCarryHashtags | src/components/ui/social-sharing.tsx:43-53 | The Twitter and Instagram texts contain the hashtags right after the base text and its separator. |
| SocialSharing.CopyText | src/components/ui/social-sharing.tsx:90-97 | Copying takes the default branch, so it copies exactly the base text. |
| SocialSharing.LinkOf | src/components/ui/social-sharing.tsx:63 | The content's link if it is non-empty, otherwise the page address. |
| SocialSharing.ShareToSocial | src/components/ui/social-sharing.tsx:59-88 | The native sheet opens exactly for "native" when it is supported, with the title, base text and link. A share window opens exactly for the four sites. Otherwise nothing happens. |
| SocialSharing.NativeWithoutSupportDoesNothing | src/components/ui/social-sharing.tsx:72-85 | "native" without browser support does nothing. |
| SocialSharing.OpenShare | src/components/ui/social-sharing.tsx:287-340 | Each of the five share functions opens the panel on content of its type, linking to the page. |
| SocialSharing.CloseSharing | src/components/ui/social-sharing.tsx:342-345 | Closes the panel and forgets the content. |
| SocialSharing.HookKeepsOpenIffContent | src/components/ui/social-sharing.tsx:284-345 | Initially and after every call, the panel is open exactly when there is content. |
| SocialSharing.OpenThenClose | src/components/ui/social-sharing.tsx:287-345 | Opening then closing returns to the initial hook state. |
| SocialSharing.SecondShareReplacesFirst | src/components/ui/social-sharing.tsx:287-340 | A second share replaces the first entirely. |
| SocialSharing.HookContentLinksToPage | src/components/ui/social-sharing.tsx:287-340 | Content shared through the hook links to the page, so its LinkedIn text ends with the page address. |
| AnalyticsLabels.Spaced | src/components/screens/analytics-dashboard.tsx:290 | Inserting spaces never yields a text that starts with a capital, and only the empty key gives an empty text. |
| AnalyticsLabels.CapFirst | src/components/screens/analytics-dashboard.tsx:290 | Upper-cases the first character and keeps the rest and the length. |
| AnalyticsLabels.Humanise | src/components/screens/analytics-dashboard.tsx:290 | The label is empty only for an empty key and is one character longer than the key per capital. |
| AnalyticsLabels.SpacedLength | src/components/screens/analytics-dashboard.tsx:290 | The output is as long as the key plus its number of capitals. |
| AnalyticsLabels.UnspaceSpaced | src/components/screens/analytics-dashboard.tsx:290 | Removing each space that stands before a capital gives back the key, so exactly one space is inserted per capital and nothing else changes. |
| AnalyticsLabels.CapitalsFollowSpaces | src/components/screens/analytics-dashboard.tsx:290 | Every capital of the output has a space right before it. |
| AnalyticsLabels.SpacedAppend | src/components/screens/analytics-dashboard.tsx:290 | Spacing a concatenation is the concatenation of the spaced parts. |
| AnalyticsLabels.HumaniseCapitalStart | src/components/screens/analytics-dashboard.tsx:290 | A key starting with a capital gives a label with a leading space, one character longer per capital. |
| AnalyticsLabels.HumaniseLowerStart | src/components/screens/analytics-dashboard.tsx:290 | A key starting with a lower-case letter gives a label starting with that letter capitalised. |
| AnalyticsLabels.HumaniseRoundTrip | src/components/screens/analytics-dashboard.tsx:290 | For a camelCase key, the label determines the key: lower-case the first letter and remove the inserted spaces. |
| AnalyticsLabels.SkillsImprovedLabel | src/components/screens/analytics-dashboard.tsx:290 | skillsImproved becomes "Skills Improved". |
| AnalyticsLabels.CoursesCompletedLabel | src/components/screens/analytics-dashboard.tsx:290 | coursesCompleted becomes "Courses Completed". |
| AnalyticsLabels.MentorSessionsLabel | src/components/screens/analytics-dashboard.tsx:290 | mentorSessions becomes "Mentor Sessions". |
| AnalyticsLabels.JobApplicationsLabel | src/components/screens/analytics-dashboard.tsx:290 | jobApplications becomes "Job Applications". |
| AnalyticsLabels.AchievementsUnlockedLabel | src/components/screens/analytics-dashboard.tsx:290 | achievementsUnlocked becomes "Achievements Unlocked". |
| AppData.CareersShape | src/data/app-data.ts:3-63 | There are four careers, with ids 1 to 4 and strictly decreasing match values 95, 88, 82 and 78. |
| AppData.CareersAllTech | src/data/app-data.ts:11-56 | Every career's tags include "Tech". |
| AppData.MentorsShape | src/data/app-data.ts:65-110 | There are four mentors, with distinct ids 1 to 4. |
| AppData.QuestionsShape | src/data/app-data.ts:112-148 | There are five questions, each with exactly four options. |

## Left out

- Rendering, Tailwind classes and dark-mode styling are not modelled. `ToggleDarkMode` flips only the flag.
- Case mapping is ASCII only. JavaScript `toLowerCase`/`toUpperCase` also map non-ASCII letters. This affects `Text.Lower` and through it `AiAdvisor.Classify`, `Mentorship.FilterMentors`, `Recommendations.SearchCareers` and `AnalyticsLabels.CapFirst`, whose contracts hold for the ASCII mapping.
- Timers are not modelled. The AI reply becomes an explicit `DeliverReply` step. The same goes for the analytics loading delay, the toast countdown and the achievement auto-close.
- AiAdvisor.DeliverReply: each reply clears the typing flag, as the first timer to fire does in the app, so with several replies queued the flag is off while later replies are still pending. Message ids come from a parameter rather than `Date.now()`, and nothing assumes they are unique.
- `Date.now()` ids and `new Date()` dates are not modelled; they become parameters. This covers job applications, booked sessions and chat messages.
- Floating point is not modelled: mentor ratings, the quiz progress percentage, bar heights, radar-chart geometry and the toast progress.
- Browser APIs are not modelled: share-window URLs built with `encodeURIComponent`, `window.open`, `navigator.share`, the clipboard, the canvas image export, `navigator.vibrate`, notification permission and Web Audio.
- The share panel's busy flag is not modelled. It is set for the duration of `shareToSocial` and cleared at its end, and it only disables the buttons meanwhile.
- SocialSharing.ShareToSocial: only the four own keys of the share-URL table open a window. A platform named like an inherited JavaScript object property would look one up too; no button passes such a name.
- The optional statistics and image of shared content are not modelled. No modelled operation reads them.
- The design-system pages, the push-notification list and the achievement celebration are not modelled. They hold static presentation data, random confetti and timer-driven list edits.
- Screens whose only logic is a navigation call, a null guard or one append are not modelled: home, onboarding, career detail, skill gap, the header, the bottom bar and the loading skeleton. Their navigation targets appear only as the registry's allowed steps.
- The job tracker's Remove button is not modelled: it has no click handler, so it changes nothing (`src/components/screens/job-tracker-screen.tsx:475-477`).
- The mentorship confirm screen's "View My Sessions" button is not modelled; it only navigates.
- The static milestone list of the progress screen is not modelled; it has no logic.

=== FILE: ai_advisor.dfy ===
/** The AI career advisor: a canned-response classifier that tests the lowercased
    message against four ordered keyword groups, and the chat it drives, where the
    reply to a sent message arrives as a separate later step. */
module AiAdvisor {
  import opened Wrappers
  import opened Text
  import Seqs

  /** The five canned responses, named by their key in `aiResponses`. */
  datatype Topic = CareerTopic | SkillsTopic | InterviewTopic | SalaryTopic | DefaultTopic

  const CareerKeywords: seq<string> := ["career", "job", "choose"]
  const SkillsKeywords: seq<string> := ["skill", "learn", "develop"]
  const InterviewKeywords: seq<string> := ["interview", "prepare"]
  const SalaryKeywords: seq<string> := ["salary", "negotiate", "pay"]

  /** The keyword groups in the order they are tried, with the topic each selects. */
  const Groups: seq<seq<string>> := [CareerKeywords, SkillsKeywords, InterviewKeywords, SalaryKeywords]
  const GroupTopics: seq<Topic> := [CareerTopic, SkillsTopic, InterviewTopic, SalaryTopic]

  /** All eleven keywords. */
  const AllKeywords: seq<string> := CareerKeywords + SkillsKeywords + InterviewKeywords + SalaryKeywords

  /** Some word of `words` is a substring of `m`. */
  predicate MentionsAny(m: string, words: seq<string>) {
    exists w :: w in words && Contains(m, w)
  }

  /** The group `words` is mentioned exactly when one of its three words is. */
  lemma MentionsThree(m: string, a: string, b: string, c: string)
    ensures MentionsAny(m, [a, b, c]) <==> Contains(m, a) || Contains(m, b) || Contains(m, c)
  {
    var ws := [a, b, c];
    assert ws[0] == a && ws[1] == b && ws[2] == c;
  }

  lemma MentionsTwo(m: string, a: string, b: string)
    ensures MentionsAny(m, [a, b]) <==> Contains(m, a) || Contains(m, b)
  {
    var ws := [a, b];
    assert ws[0] == a && ws[1] == b;
  }

  /** Each group of the ordered list, read as the disjunction `getAIResponse` tests. */
  lemma GroupsSpelledOut(m: string)
    ensures MentionsAny(m, Groups[0]) <==> Contains(m, "career") || Contains(m, "job") || Contains(m, "choose")
    ensures MentionsAny(m, Groups[1]) <==> Contains(m, "skill") || Contains(m, "learn") || Contains(m, "develop")
    ensures MentionsAny(m, Groups[2]) <==> Contains(m, "interview") || Contains(m, "prepare")
    ensures MentionsAny(m, Groups[3]) <==> Contains(m, "salary") || Contains(m, "negotiate") || Contains(m, "pay")
  {
    MentionsThree(m, "career", "job", "choose");
    MentionsThree(m, "skill", "learn", "develop");
    MentionsTwo(m, "interview", "prepare");
    MentionsThree(m, "salary", "negotiate", "pay");
  }

  /** The if-chain of `getAIResponse` on the already lowercased message. */
  function TopicOf(m: string): Topic {
    if Contains(m, "career") || Contains(m, "job") || Contains(m, "choose") then CareerTopic
    else if Contains(m, "skill") || Contains(m, "learn") || Contains(m, "develop") then SkillsTopic
    else if Contains(m, "interview") || Contains(m, "prepare") then InterviewTopic
    else if Contains(m, "salary") || Contains(m, "negotiate") || Contains(m, "pay") then SalaryTopic
    else DefaultTopic
  }

  /** The key `getAIResponse` answers with: the default exactly when none of the
      eleven keywords occurs in the lowercased message, the career advice exactly when
      a career keyword does. */
  function Classify(userMessage: string): (t: Topic)
    ensures t == DefaultTopic <==> !MentionsAny(Lower(userMessage), AllKeywords)
    ensures t == CareerTopic <==> MentionsAny(Lower(userMessage), Groups[0])
  {
    var m := Lower(userMessage);
    GroupsSpelledOut(m);
    assert MentionsAny(m, AllKeywords) <==>
      MentionsAny(m, Groups[0]) || MentionsAny(m, Groups[1]) ||
      MentionsAny(m, Groups[2]) || MentionsAny(m, Groups[3]);
    TopicOf(m)
  }

  /** The reference rule: the index of the first group the message mentions, or the
      number of groups when it mentions none. */
  function FirstMatch(groups: seq<seq<string>>, m: string): (k: nat)
    ensures k <= |groups|
    ensures k < |groups| ==> MentionsAny(m, groups[k])
    ensures forall j :: 0 <= j < k ==> !MentionsAny(m, groups[j])
    decreases |groups|
  {
    if groups == [] then 0
    else if MentionsAny(m, groups[0]) then 0
    else 1 + FirstMatch(groups[1..], m)
  }

  /** The classifier is the first-match rule over the ordered groups: an earlier group
      always wins over a later one, and the default is chosen only when no group
      matches. */
  lemma ClassifyIsFirstMatch(userMessage: string)
    ensures var k := FirstMatch(Groups, Lower(userMessage));
      Classify(userMessage) == if k < |Groups| then GroupTopics[k] else DefaultTopic
  {
    var m := Lower(userMessage);
    var k := FirstMatch(Groups, m);
    GroupsSpelledOut(m);
    if k < |Groups| {
      assert MentionsAny(m, Groups[k]);
    }
    assert k >= 1 ==> !MentionsAny(m, Groups[0]);
    assert k >= 2 ==> !MentionsAny(m, Groups[1]);
    assert k >= 3 ==> !MentionsAny(m, Groups[2]);
    assert k >= 4 ==> !MentionsAny(m, Groups[3]);
  }

  /** The classifier only looks at the lowercased text, so the upper-case and the
      lower-case spelling of a message get the same response. */
  lemma ClassifyIgnoresCase(userMessage: string)
    ensures Classify(Upper(userMessage)) == Classify(userMessage)
    ensures Classify(Lower(userMessage)) == Classify(userMessage)
  {
    LowerOfUpper(userMessage);
    LowerIdempotent(userMessage);
  }

  const CareerResponse: string :=
    "Based on your assessment results, I see you have strong analytical skills and enjoy creative problem-solving. Have you considered UX Research or Product Management? These roles combine analytical thinking with creative strategy."
  const SkillsResponse: string :=
    "For your target career in UX Design, I recommend focusing on: 1) User Research Methods 2) Prototyping Tools (Figma, Sketch) 3) Design Systems 4) Data Analysis. Would you like specific course recommendations for any of these?"
  const InterviewResponse: string :=
    "Great question! For UX interviews, prepare for: 1) Portfolio presentation (15-20 min) 2) Design challenges 3) Behavioral questions 4) Questions about your process. Practice explaining your design decisions clearly."
  const SalaryResponse: string :=
    "Research shows UX Designers in your area earn $65k-$95k. For negotiation: 1) Research market rates 2) Document your achievements 3) Practice your pitch 4) Consider total compensation, not just salary."
  const DefaultResponse: string :=
    "That's an interesting question! Based on your profile and career goals, I'd suggest exploring this further. Would you like me to connect you with a mentor who specializes in this area, or shall we dive deeper into specific aspects?"

  /** `aiResponses[topic]`. */
  function ResponseText(t: Topic): string {
    match t
    case CareerTopic => CareerResponse
    case SkillsTopic => SkillsResponse
    case InterviewTopic => InterviewResponse
    case SalaryTopic => SalaryResponse
    case DefaultTopic => DefaultResponse
  }

  /** The five canned responses are pairwise different, so a reply tells which topic
      was chosen. */
  lemma ResponseTextInjective(t: Topic, u: Topic)
    requires t != u
    ensures ResponseText(t) != ResponseText(u)
  {
  }

  /** `getAIResponse`: defined for every message, and always one of the five fixed
      texts. */
  function GetAIResponse(userMessage: string): (r: string)
    ensures r in {CareerResponse, SkillsResponse, InterviewResponse, SalaryResponse, DefaultResponse}
    ensures r == DefaultResponse <==> !MentionsAny(Lower(userMessage), AllKeywords)
  {
    var t := Classify(userMessage);
    assert t != DefaultTopic ==> ResponseText(t) != DefaultResponse by {
      if t != DefaultTopic {
        ResponseTextInjective(t, DefaultTopic);
      }
    }
    ResponseText(t)
  }

  datatype Sender = User | Ai

  /** A chat message; its timestamp comes from `new Date()` and is not modelled. User
      messages carry no suggestions. */
  datatype Message = Message(id: int, sender: Sender, content: string, suggestions: Option<seq<string>>)

  const Greeting: string :=
    "Hi! I'm your AI Career Advisor. I'm here to help you with career guidance, skill development, and job search strategies. What would you like to discuss today?"

  const GreetingSuggestions: seq<string> := [
    "Help me choose between careers",
    "What skills should I develop?",
    "How to prepare for interviews?",
    "Salary negotiation tips"
  ]

  /** The suggestions attached to every AI reply. */
  const FollowUps: seq<string> := [
    "Tell me more about this",
    "Show me relevant courses",
    "Connect me with a mentor",
    "What's the next step?"
  ]

  /** The screen's state. `pending` holds, oldest first, the texts whose reply timer
      has been scheduled but has not fired yet; each timer captured the input at the
      moment it was sent. */
  datatype Chat = Chat(messages: seq<Message>, input: string, typing: bool, pending: seq<string>)

  function InitialChat(): Chat {
    Chat([Message(1, Ai, Greeting, Some(GreetingSuggestions))], "", false, [])
  }

  /** Typing in the input box. */
  function SetInput(c: Chat, text: string): Chat {
    c.(input := text)
  }

  /** `handleSendMessage` up to the timer: a blank input is ignored; otherwise the user
      message is appended, the input cleared, the typing indicator shown and a reply
      scheduled for the text as sent. `id` stands for `Date.now()`. */
  function Send(c: Chat, id: int): (r: Chat)
    ensures IsBlank(c.input) ==> r == c
    ensures !IsBlank(c.input) ==>
      && r.messages == c.messages + [Message(id, User, c.input, None)]
      && r.input == "" && r.typing
      && r.pending == c.pending + [c.input]
  {
    TrimEmptyIffBlank(c.input);
    if Trim(c.input) == "" then c
    else Chat(c.messages + [Message(id, User, c.input, None)], "", true, c.pending + [c.input])
  }

  /** The send button: disabled while the input is blank or a reply is being typed.
      The Enter key calls `Send` directly and is not held back by `typing`. */
  function ClickSend(c: Chat, id: int): (r: Chat)
    ensures c.typing ==> r == c
    ensures !c.typing ==> r == Send(c, id)
  {
    if c.typing then c else Send(c, id)
  }

  /** The oldest reply timer fires: the reply to the text it captured is appended with
      the follow-up suggestions and the typing indicator is cleared. With no timer
      scheduled nothing happens. `id` stands for `Date.now() + 1`. */
  function DeliverReply(c: Chat, id: int): (r: Chat)
    ensures c.pending == [] ==> r == c
    ensures c.pending != [] ==>
      && r.messages == c.messages + [Message(id, Ai, GetAIResponse(c.pending[0]), Some(FollowUps))]
      && r.pending == c.pending[1..]
      && !r.typing && r.input == c.input
  {
    if c.pending == [] then c
    else
      Chat(c.messages + [Message(id, Ai, GetAIResponse(c.pending[0]), Some(FollowUps))],
           c.input, false, c.pending[1..])
  }

  /** A suggestion or quick-action button copies its text into the input box. */
  function SuggestionClick(c: Chat, suggestion: string): (r: Chat)
    ensures r.input == suggestion
    ensures r.(input := c.input) == c
  {
    c.(input := suggestion)
  }

  /** The quick-action buttons are shown only while the greeting is the only message. */
  predicate ShowsQuickActions(c: Chat) {
    |c.messages| == 1
  }

  /** The quick actions: a label and the prompt copied into the input box. */
  const QuickActions: seq<(string, string)> := [
    ("Career Match", "What careers match my profile?"),
    ("Skill Gap", "What skills should I develop?"),
    ("Find Mentor", "Help me find the right mentor"),
    ("Interview Prep", "How should I prepare for interviews?")
  ]

  /** A full round: sending a non-blank message with no reply outstanding, then letting
      its timer fire, appends exactly the user message and then the reply to it. The
      reply answers the text as sent, even if the box was typed into meanwhile. */
  lemma SendThenReply(c: Chat, id: int, typed: string, replyId: int)
    requires !IsBlank(c.input) && c.pending == []
    ensures var r := DeliverReply(SetInput(Send(c, id), typed), replyId);
      && r.messages == c.messages + [Message(id, User, c.input, None),
                                     Message(replyId, Ai, GetAIResponse(c.input), Some(FollowUps))]
      && r.input == typed && !r.typing && r.pending == []
  {
  }

  /** Whatever is typed, the chat grows by at most one message per step and sending
      keeps one pending reply per unanswered user message. */
  lemma SendAddsOnePending(c: Chat, id: int)
    ensures |Send(c, id).messages| - |c.messages| == |Send(c, id).pending| - |c.pending|
    ensures |Send(c, id).messages| <= |c.messages| + 1
  {
  }

  /** What the user and the timers can do on the screen. */
  datatype Event =
    | Type(text: string)
    | Suggest(suggestion: string)
    | EnterKey(id: int)
    | ClickButton(id: int)
    | TimerFires(id: int)

  function Apply(c: Chat, e: Event): Chat {
    match e
    case Type(text) => SetInput(c, text)
    case Suggest(text) => SuggestionClick(c, text)
    case EnterKey(id) => Send(c, id)
    case ClickButton(id) => ClickSend(c, id)
    case TimerFires(id) => DeliverReply(c, id)
  }

  function Play(c: Chat, events: seq<Event>): Chat
    decreases |events|
  {
    if events == [] then c else Play(Apply(c, events[0]), events[1..])
  }

  function IsFromUser(m: Message): bool {
    m.sender == User
  }

  function IsFromAi(m: Message): bool {
    m.sender == Ai
  }

  /** The chat invariant: every user message has been answered or is waiting for its
      reply, besides the greeting, and the typing indicator shows only while a reply
      is outstanding. */
  predicate Balanced(c: Chat) {
    && Seqs.Count(IsFromUser, c.messages) + 1 == Seqs.Count(IsFromAi, c.messages) + |c.pending|
    && (c.typing ==> c.pending != [])
  }

  lemma InitialBalanced()
    ensures Balanced(InitialChat())
  {
  }

  /** Every event keeps the chat balanced. */
  lemma ApplyKeepsBalance(c: Chat, e: Event)
    requires Balanced(c)
    ensures Balanced(Apply(c, e))
  {
    var r := Apply(c, e);
    if |r.messages| > |c.messages| {
      var m := r.messages[|c.messages|];
      assert r.messages == c.messages + [m];
      Seqs.CountAppend(IsFromUser, c.messages, [m]);
      Seqs.CountAppend(IsFromAi, c.messages, [m]);
    }
  }

  /** Whatever the user types, clicks or presses and whenever the timers fire, the
      chat stays balanced; in particular there are never more replies than user
      messages. */
  lemma {:induction false} PlayKeepsBalance(c: Chat, events: seq<Event>)
    requires Balanced(c)
    ensures Balanced(Play(c, events))
    decreases |events|
  {
    if events != [] {
      ApplyKeepsBalance(c, events[0]);
      PlayKeepsBalance(Apply(c, events[0]), events[1..]);
    }
  }

  lemma RepliesNeverOutnumberQuestions(events: seq<Event>)
    ensures var c := Play(InitialChat(), events);
      Seqs.Count(IsFromAi, c.messages) <= Seqs.Count(IsFromUser, c.messages) + 1
  {
    InitialBalanced();
    PlayKeepsBalance(InitialChat(), events);
  }

  /** Upper- and lower-case letters of the prompts, once lowercased. */
  lemma LowerCareerPrompt()
    ensures Lower("What careers match my profile?") == "what careers match my profile?"
  {
  }

  lemma LowerSkillsPrompt()
    ensures Lower("What skills should I develop?") == "what skills should i develop?"
  {
  }

  lemma LowerMentorPrompt()
    ensures Lower("Help me find the right mentor") == "help me find the right mentor"
  {
  }

  lemma LowerInterviewPrompt()
    ensures Lower("How should I prepare for interviews?") == "how should i prepare for interviews?"
  {
  }

  lemma LowerRepay()
    ensures Lower("repay") == "repay"
  {
  }

  /** "What careers match my profile?" mentions "career". */
  lemma CareerPromptIsCareer()
    ensures Classify("What careers match my profile?") == CareerTopic
  {
    LowerCareerPrompt();
    assert OccursAt("what careers match my profile?", "career", 5);
  }

  /** "What skills should I develop?" mentions "skill" and no career keyword. */
  lemma SkillsPromptIsSkills()
    ensures Classify("What skills should I develop?") == SkillsTopic
  {
    var m := "what skills should i develop?";
    LowerSkillsPrompt();
    MissingCharExcludes(m, "career", 0);
    MissingCharExcludes(m, "job", 0);
    MissingCharExcludes(m, "choose", 0);
    assert OccursAt(m, "skill", 5);
  }

  const MentorText: string := "help me find the right mentor"

  lemma MentorTextNoCareerWord()
    ensures !Contains(MentorText, "career") && !Contains(MentorText, "job") && !Contains(MentorText, "choose")
  {
    assert !Contains(MentorText, "career") by { MissingCharExcludes(MentorText, "career", 0); }
    assert !Contains(MentorText, "job") by { MissingCharExcludes(MentorText, "job", 0); }
    assert !Contains(MentorText, "choose") by { MissingCharExcludes(MentorText, "choose", 0); }
  }

  lemma MentorTextNoSkillsWord()
    ensures !Contains(MentorText, "skill") && !Contains(MentorText, "learn") && !Contains(MentorText, "develop")
  {
    assert !Contains(MentorText, "skill") by { MissingCharExcludes(MentorText, "skill", 1); }
    assert !Contains(MentorText, "learn") by { MissingCharExcludes(MentorText, "learn", 2); }
    assert !Contains(MentorText, "develop") by { MissingCharExcludes(MentorText, "develop", 2); }
  }

  lemma MentorTextNoInterviewWord()
    ensures !Contains(MentorText, "interview") && !Contains(MentorText, "prepare")
  {
    assert !Contains(MentorText, "interview") by { MissingCharExcludes(MentorText, "interview", 5); }
    assert !Contains(MentorText, "prepare") by { MissingCharExcludes(MentorText, "prepare", 4); }
  }

  lemma MentorTextNoSalaryWord()
    ensures !Contains(MentorText, "salary") && !Contains(MentorText, "negotiate") && !Contains(MentorText, "pay")
  {
    assert !Contains(MentorText, "salary") by { MissingCharExcludes(MentorText, "salary", 1); }
    assert !Contains(MentorText, "negotiate") by { MissingCharExcludes(MentorText, "negotiate", 6); }
    assert !Contains(MentorText, "pay") by { MissingCharExcludes(MentorText, "pay", 1); }
  }

  /** "Help me find the right mentor" mentions none of the eleven keywords. */
  lemma MentorPromptIsDefault()
    ensures Classify("Help me find the right mentor") == DefaultTopic
  {
    LowerMentorPrompt();
    MentorTextNoCareerWord();
    MentorTextNoSkillsWord();
    MentorTextNoInterviewWord();
    MentorTextNoSalaryWord();
    assert TopicOf(MentorText) == DefaultTopic;
  }

  const InterviewText: string := "how should i prepare for interviews?"

  lemma InterviewTextNoCareerWord()
    ensures !Contains(InterviewText, "career") && !Contains(InterviewText, "job") && !Contains(InterviewText, "choose")
  {
    assert !Contains(InterviewText, "career") by { MissingCharExcludes(InterviewText, "career", 0); }
    assert !Contains(InterviewText, "job") by { MissingCharExcludes(InterviewText, "job", 0); }
    assert !Contains(InterviewText, "choose") by { MissingCharExcludes(InterviewText, "choose", 0); }
  }

  lemma InterviewTextNoSkill()
    ensures !Contains(InterviewText, "skill")
  {
    MissingCharExcludes(InterviewText, "skill", 1);
  }

  /** The only "l" in the text is followed by "d". */
  lemma InterviewTextNoLearn()
    ensures !Contains(InterviewText, "learn")
  {
    assert InterviewText == "how shou" + ['l'] + "d i prepare for interviews?";
    SinglePairExcludes(InterviewText, "learn", 0, "how shou", "d i prepare for interviews?");
  }

  /** The only "d" in the text is followed by a space. This is the same argument as
      `InterviewTextNoLearn` about a different letter. Each is kept to one fact about
      the literal, because proving both in one lemma costs the verifier more than the
      two apart. */
  lemma InterviewTextNoDevelop()
    ensures !Contains(InterviewText, "develop")
  {
    assert InterviewText == "how shoul" + ['d'] + " i prepare for interviews?";
    SinglePairExcludes(InterviewText, "develop", 0, "how shoul", " i prepare for interviews?");
  }

  /** "How should I prepare for interviews?" mentions "prepare" and "interview" and
      nothing of the two earlier groups. */
  lemma InterviewPromptIsInterview()
    ensures Classify("How should I prepare for interviews?") == InterviewTopic
  {
    LowerInterviewPrompt();
    InterviewTextNoCareerWord();
    InterviewTextNoSkill();
    InterviewTextNoLearn();
    InterviewTextNoDevelop();
    assert OccursAt(InterviewText, "prepare", 13);
    assert TopicOf(InterviewText) == InterviewTopic;
  }

  lemma RepayNoEarlyKeyword()
    ensures !Contains("repay", "career") && !Contains("repay", "job") && !Contains("repay", "choose")
    ensures !Contains("repay", "skill") && !Contains("repay", "learn") && !Contains("repay", "develop")
    ensures !Contains("repay", "interview")
  {
    assert !Contains("repay", "career") by { MissingCharExcludes("repay", "career", 0); }
    assert !Contains("repay", "job") by { MissingCharExcludes("repay", "job", 0); }
    assert !Contains("repay", "choose") by { MissingCharExcludes("repay", "choose", 0); }
    assert !Contains("repay", "skill") by { MissingCharExcludes("repay", "skill", 0); }
    assert !Contains("repay", "learn") by { MissingCharExcludes("repay", "learn", 0); }
    assert !Contains("repay", "develop") by { MissingCharExcludes("repay", "develop", 0); }
    assert !Contains("repay", "interview") by { MissingCharExcludes("repay", "interview", 0); }
  }

  /** Matching is by substring, not by word: "repay" contains "pay" and is answered
      with the salary advice. */
  lemma RepayIsSalary()
    ensures Classify("repay") == SalaryTopic
  {
    LowerRepay();
    RepayNoEarlyKeyword();
    assert "repay" == "re" + ['p'] + "ay";
    SinglePairExcludes("repay", "prepare", 0, "re", "ay");
    assert OccursAt("repay", "pay", 2);
    assert TopicOf("repay") == SalaryTopic;
  }

  /** The four quick actions are answered with the career, skills, default and
      interview responses, in that order. */
  lemma QuickActionResponses()
    ensures GetAIResponse(QuickActions[0].1) == CareerResponse
    ensures GetAIResponse(QuickActions[1].1) == SkillsResponse
    ensures GetAIResponse(QuickActions[2].1) == DefaultResponse
    ensures GetAIResponse(QuickActions[3].1) == InterviewResponse
  {
    CareerPromptIsCareer();
    SkillsPromptIsSkills();
    MentorPromptIsDefault();
    InterviewPromptIsInterview();
  }
}

=== FILE: analytics_labels.dfy ===
/** The analytics dashboard's label for a progress key: a space before every capital,
    then the first character in upper case (`skillsImproved` becomes "Skills
    Improved"). */
module AnalyticsLabels {
  import opened Text
  import Seqs

  /** The number of ASCII capitals in `s`. */
  function CountUpper(s: string): nat {
    Seqs.Count(IsUpper, s)
  }

  /** `key.replace(/([A-Z])/g, " $1")`: each capital becomes a space and itself. */
  function Spaced(key: string): (r: string)
    ensures r == [] <==> key == []
    ensures r == [] || !IsUpper(r[0])
    decreases |key|
  {
    if key == [] then []
    else (if IsUpper(key[0]) then [' ', key[0]] else [key[0]]) + Spaced(key[1..])
  }

  /** `.replace(/^./, (str) => str.toUpperCase())`. The pattern's `.` skips line
      terminators, which upper-casing leaves unchanged anyway, so every first
      character is treated alike. */
  function CapFirst(s: string): (r: string)
    ensures |r| == |s|
    ensures s != [] ==> r[0] == UpperChar(s[0]) && r[1..] == s[1..]
  {
    if s == [] then [] else [UpperChar(s[0])] + s[1..]
  }

  /** The label shown under each progress counter. */
  function Humanise(key: string): (r: string)
    ensures r == [] <==> key == []
    ensures |r| == |key| + CountUpper(key)
  {
    SpacedLength(key);
    CapFirst(Spaced(key))
  }

  /** The reverse of `Spaced`: drop a space that stands directly before a capital. */
  function Unspace(s: string): string
    decreases |s|
  {
    if s == [] then []
    else if |s| >= 2 && s[0] == ' ' && IsUpper(s[1]) then [s[1]] + Unspace(s[2..])
    else [s[0]] + Unspace(s[1..])
  }

  /** Each capital adds exactly one character. */
  lemma {:induction false} SpacedLength(key: string)
    ensures |Spaced(key)| == |key| + CountUpper(key)
    decreases |key|
  {
    if key != [] {
      SpacedLength(key[1..]);
    }
  }

  /** Spacing loses nothing: removing the inserted spaces gives the key back. */
  lemma {:induction false} UnspaceSpaced(key: string)
    ensures Unspace(Spaced(key)) == key
    decreases |key|
  {
    if key != [] {
      var rest := Spaced(key[1..]);
      UnspaceSpaced(key[1..]);
      if IsUpper(key[0]) {
        var s := [' ', key[0]] + rest;
        assert s[0] == ' ' && s[1] == key[0] && s[2..] == rest;
      } else {
        var s := [key[0]] + rest;
        assert s[0] == key[0] && s[1..] == rest;
        assert !(|s| >= 2 && IsUpper(s[1]));
      }
    }
  }

  /** Every capital of the spaced key has a space right before it. */
  lemma {:induction false} CapitalsFollowSpaces(key: string)
    ensures forall i :: 0 <= i < |Spaced(key)| && IsUpper(Spaced(key)[i]) ==> i > 0 && Spaced(key)[i - 1] == ' '
    decreases |key|
  {
    if key != [] {
      CapitalsFollowSpaces(key[1..]);
      var rest := Spaced(key[1..]);
      var head := if IsUpper(key[0]) then [' ', key[0]] else [key[0]];
      var s := head + rest;
      forall i | 0 <= i < |s| && IsUpper(s[i]) ensures i > 0 && s[i - 1] == ' ' {
        if i >= |head| {
          assert s[i] == rest[i - |head|];
          if i - |head| > 0 {
            assert s[i - 1] == rest[i - |head| - 1];
          }
        }
      }
    }
  }

  /** Spacing distributes over concatenation. */
  lemma {:induction false} SpacedAppend(a: string, b: string)
    ensures Spaced(a + b) == Spaced(a) + Spaced(b)
    decreases |a|
  {
    if a == [] {
      assert a + b == b;
    } else {
      SpacedAppend(a[1..], b);
      assert (a + b)[0] == a[0] && (a + b)[1..] == a[1..] + b;
    }
  }

  /** A key without capitals is left as it is. */
  lemma {:induction false} SpacedWithoutCapitals(key: string)
    requires forall i :: 0 <= i < |key| ==> !IsUpper(key[i])
    ensures Spaced(key) == key
    decreases |key|
  {
    if key != [] {
      SpacedWithoutCapitals(key[1..]);
    }
  }

  /** A key that starts with a capital gets a leading space, which upper-casing keeps. */
  lemma HumaniseCapitalStart(key: string)
    requires key != [] && IsUpper(key[0])
    ensures Humanise(key)[0] == ' '
    ensures |Humanise(key)| == |key| + CountUpper(key)
  {
    SpacedLength(key);
  }

  /** A key that starts with a lower-case letter gets that letter capitalised. */
  lemma HumaniseLowerStart(key: string)
    requires key != [] && IsLower(key[0])
    ensures Humanise(key)[0] == UpperChar(key[0])
    ensures |Humanise(key)| == |key| + CountUpper(key)
  {
    SpacedLength(key);
  }

  /** For a camelCase key (lower-case first letter) the label determines the key:
      lower-case its first letter and remove the inserted spaces. */
  lemma HumaniseRoundTrip(key: string)
    requires key != [] && IsLower(key[0])
    ensures var shown := Humanise(key); Unspace([LowerChar(shown[0])] + shown[1..]) == key
  {
    var shown := Humanise(key);
    var s := Spaced(key);
    assert s == [key[0]] + Spaced(key[1..]);
    assert LowerChar(UpperChar(key[0])) == key[0];
    assert [LowerChar(shown[0])] + shown[1..] == s;
    UnspaceSpaced(key);
  }

  /** Spacing a key with one capital in the middle. */
  lemma SpacedTwoWords(first: string, capital: char, rest: string)
    requires IsUpper(capital)
    requires forall i :: 0 <= i < |first| ==> !IsUpper(first[i])
    requires forall i :: 0 <= i < |rest| ==> !IsUpper(rest[i])
    ensures Spaced(first + [capital] + rest) == first + [' ', capital] + rest
  {
    var head := first + [capital];
    SpacedAppend(head, rest);
    SpacedAppend(first, [capital]);
    SpacedWithoutCapitals(first);
    SpacedWithoutCapitals(rest);
    assert Spaced([capital]) == [' ', capital] by {
      assert [capital][1..] == [];
    }
    calc {
      Spaced(head + rest);
      Spaced(head) + Spaced(rest);
      (first + [' ', capital]) + rest;
    }
  }

  /** One capital in the middle of a two-word key. The five progress keys of the
      dashboard are each of this shape. */
  lemma TwoWords(first: string, capital: char, rest: string)
    requires first != [] && IsUpper(capital)
    requires forall i :: 0 <= i < |first| ==> !IsUpper(first[i])
    requires forall i :: 0 <= i < |rest| ==> !IsUpper(rest[i])
    ensures Humanise(first + [capital] + rest) == [UpperChar(first[0])] + first[1..] + [' ', capital] + rest
  {
    SpacedTwoWords(first, capital, rest);
    var s := first + [' ', capital] + rest;
    assert s[0] == first[0] && s[1..] == first[1..] + [' ', capital] + rest;
  }

  lemma SkillsImprovedPieces()
    ensures "skillsImproved" == "skills" + ['I'] + "mproved"
    ensures forall i :: 0 <= i < |"skills"| ==> !IsUpper("skills"[i])
    ensures forall i :: 0 <= i < |"mproved"| ==> !IsUpper("mproved"[i])
    ensures [UpperChar("skills"[0])] + "skills"[1..] + [' ', 'I'] + "mproved" == "Skills Improved"
  {
  }

  lemma SkillsImprovedLabel()
    ensures Humanise("skillsImproved") == "Skills Improved"
  {
    SkillsImprovedPieces();
    TwoWords("skills", 'I', "mproved");
  }

  lemma CoursesCompletedPieces()
    ensures "coursesCompleted" == "courses" + ['C'] + "ompleted"
    ensures forall i :: 0 <= i < |"courses"| ==> !IsUpper("courses"[i])
    ensures forall i :: 0 <= i < |"ompleted"| ==> !IsUpper("ompleted"[i])
    ensures [UpperChar("courses"[0])] + "courses"[1..] + [' ', 'C'] + "ompleted" == "Courses Completed"
  {
  }

  lemma CoursesCompletedLabel()
    ensures Humanise("coursesCompleted") == "Courses Completed"
  {
    CoursesCompletedPieces();
    TwoWords("courses", 'C', "ompleted");
  }

  lemma MentorSessionsPieces()
    ensures "mentorSessions" == "mentor" + ['S'] + "essions"
    ensures forall i :: 0 <= i < |"mentor"| ==> !IsUpper("mentor"[i])
    ensures forall i :: 0 <= i < |"essions"| ==> !IsUpper("essions"[i])
    ensures [UpperChar("mentor"[0])] + "mentor"[1..] + [' ', 'S'] + "essions" == "Mentor Sessions"
  {
  }

  lemma MentorSessionsLabel()
    ensures Humanise("mentorSessions") == "Mentor Sessions"
  {
    MentorSessionsPieces();
    TwoWords("mentor", 'S', "essions");
  }

  lemma JobApplicationsPieces()
    ensures "jobApplications" == "job" + ['A'] + "pplications"
    ensures forall i :: 0 <= i < |"job"| ==> !IsUpper("job"[i])
    ensures forall i :: 0 <= i < |"pplications"| ==> !IsUpper("pplications"[i])
    ensures [UpperChar("job"[0])] + "job"[1..] + [' ', 'A'] + "pplications" == "Job Applications"
  {
  }

  lemma JobApplicationsLabel()
    ensures Humanise("jobApplications") == "Job Applications"
  {
    JobApplicationsPieces();
    TwoWords("job", 'A', "pplications");
  }

  lemma AchievementsUnlockedPieces()
    ensures "achievementsUnlocked" == "achievements" + ['U'] + "nlocked"
    ensures forall i :: 0 <= i < |"achievements"| ==> !IsUpper("achievements"[i])
    ensures forall i :: 0 <= i < |"nlocked"| ==> !IsUpper("nlocked"[i])
    ensures [UpperChar("achievements"[0])] + "achievements"[1..] + [' ', 'U'] + "nlocked" == "Achievements Unlocked"
  {
  }

  lemma AchievementsUnlockedLabel()
    ensures Humanise("achievementsUnlocked") == "Achievements Unlocked"
  {
    AchievementsUnlockedPieces();
    TwoWords("achievements", 'U', "nlocked");
  }
}

=== FILE: app_context.dfy ===
/** The session controller every screen reads and writes: the current screen and its
    navigation history, the quiz position and answers, the saved careers, the
    selected career and mentor, the progress percentage and the dark-mode flag. */
module AppContext {
  import opened Wrappers
  import opened AppData
  import Seqs

  /** The twelve screen tags. */
  datatype Screen =
    | Onboarding | Home | Test | Recommendations | CareerDetail | SkillGap
    | Mentorship | Progress | Notifications | AiAdvisor | JobTracker | Analytics

  /** A quiz answer slot. Writing past the end of a JavaScript array leaves holes
      (`undefined`) below the written index; `None` is such a hole. */
  type Answer = Option<string>

  datatype Session = Session(
    currentScreen: Screen,
    darkMode: bool,
    currentQuestion: nat,
    selectedCareer: Option<Career>,
    selectedMentor: Option<Mentor>,
    testAnswers: seq<Answer>,
    savedCareers: seq<int>,
    userProgress: int,
    navigationHistory: seq<Screen>)

  /** The navigation invariant: the history is never empty and its last entry is the
      screen on display. */
  predicate Valid(s: Session) {
    |s.navigationHistory| >= 1 && s.currentScreen == s.navigationHistory[|s.navigationHistory| - 1]
  }

  /** The state the provider starts with. */
  function Initial(): (s: Session)
    ensures Valid(s)
    ensures s.currentScreen == Onboarding && s.navigationHistory == [Onboarding]
    ensures s.testAnswers == [] && s.savedCareers == [] && s.currentQuestion == 0
    ensures s.userProgress == 60 && !s.darkMode
    ensures s.selectedCareer == None && s.selectedMentor == None
  {
    Session(Onboarding, false, 0, None, None, [], [], 60, [Onboarding])
  }

  /** `navigateToScreen`: push the target, whatever it is, and show it. */
  function Navigate(s: Session, screen: Screen): (r: Session)
    ensures Valid(r)
    ensures r.currentScreen == screen
    ensures r.navigationHistory == s.navigationHistory + [screen]
    ensures |r.navigationHistory| == |s.navigationHistory| + 1
    ensures r.(currentScreen := s.currentScreen, navigationHistory := s.navigationHistory) == s
  {
    s.(navigationHistory := s.navigationHistory + [screen], currentScreen := screen)
  }

  /** `goBack`: above the root, pop the last entry and show the entry below it; at the
      root, do nothing. */
  function GoBack(s: Session): (r: Session)
    ensures |s.navigationHistory| > 1 ==>
      && r.navigationHistory == s.navigationHistory[..|s.navigationHistory| - 1]
      && r.currentScreen == s.navigationHistory[|s.navigationHistory| - 2]
    ensures |s.navigationHistory| <= 1 ==> r == s
    ensures Valid(s) ==> Valid(r)
    ensures r.(currentScreen := s.currentScreen, navigationHistory := s.navigationHistory) == s
  {
    if |s.navigationHistory| > 1 then
      var newHistory := s.navigationHistory[..|s.navigationHistory| - 1];
      s.(navigationHistory := newHistory, currentScreen := newHistory[|newHistory| - 1])
    else
      s
  }

  /** `goBack` pressed `k` times in a row. */
  function GoBackTimes(s: Session, k: nat): (r: Session)
    requires Valid(s)
    ensures Valid(r)
    ensures |r.navigationHistory| == if k < |s.navigationHistory| then |s.navigationHistory| - k else 1
    ensures r.navigationHistory == s.navigationHistory[..|r.navigationHistory|]
    decreases k
  {
    if k == 0 then s else GoBackTimes(GoBack(s), k - 1)
  }

  /** Going back right after navigating restores the session exactly. */
  lemma NavigateThenGoBack(s: Session, screen: Screen)
    requires Valid(s)
    ensures GoBack(Navigate(s, screen)) == s
  {
    assert (s.navigationHistory + [screen])[..|s.navigationHistory|] == s.navigationHistory;
  }

  /** `darkMode` toggle. */
  function ToggleDarkMode(s: Session): (r: Session)
    ensures r.darkMode != s.darkMode
    ensures r.(darkMode := s.darkMode) == s
  {
    s.(darkMode := !s.darkMode)
  }

  /** `updateProgress`. */
  function UpdateProgress(s: Session, progress: int): (r: Session)
    ensures r.userProgress == progress
    ensures r.(userProgress := s.userProgress) == s
  {
    s.(userProgress := progress)
  }

  /** `setSelectedCareer`. */
  function SetSelectedCareer(s: Session, career: Option<Career>): (r: Session)
    ensures r.selectedCareer == career
    ensures r.(selectedCareer := s.selectedCareer) == s
  {
    s.(selectedCareer := career)
  }

  /** `setCurrentQuestion`. */
  function SetCurrentQuestion(s: Session, q: nat): (r: Session)
    ensures r.currentQuestion == q
    ensures r.(currentQuestion := s.currentQuestion) == s
  {
    s.(currentQuestion := q)
  }

  /** The answer the quiz shows for question `i`: `testAnswers[i] || ""`. */
  function StoredAnswer(answers: seq<Answer>, i: nat): (a: string)
    ensures i < |answers| && answers[i].Some? ==> a == answers[i].value
    ensures i >= |answers| || answers[i].None? ==> a == ""
  {
    if i < |answers| then answers[i].GetOr("") else ""
  }

  /** `k` holes. */
  function Holes(k: nat): (r: seq<Answer>)
    ensures |r| == k && forall i :: 0 <= i < k ==> r[i] == None
  {
    seq(k, _ => None)
  }

  /** `newAnswers[q] = answer` on a copy of `answers`: write the slot, growing the
      array with holes when `q` is past its end. */
  function SetAnswer(answers: seq<Answer>, q: nat, answer: string): (r: seq<Answer>)
    ensures |r| == if q < |answers| then |answers| else q + 1
    ensures r[q] == Some(answer)
    ensures forall i :: 0 <= i < |r| && i != q ==>
      r[i] == (if i < |answers| then answers[i] else None)
  {
    if q < |answers| then answers[q := Some(answer)]
    else answers + Holes(q - |answers|) + [Some(answer)]
  }

  /** `addTestAnswer`: record an answer for the current question. */
  function AddTestAnswer(s: Session, answer: string): (r: Session)
    ensures StoredAnswer(r.testAnswers, s.currentQuestion) == answer
    ensures |r.testAnswers| >= |s.testAnswers|
    ensures forall i :: 0 <= i < |s.testAnswers| && i != s.currentQuestion ==>
      r.testAnswers[i] == s.testAnswers[i]
    ensures forall i: nat :: i != s.currentQuestion ==>
      StoredAnswer(r.testAnswers, i) == StoredAnswer(s.testAnswers, i)
    ensures r.(testAnswers := s.testAnswers) == s
  {
    s.(testAnswers := SetAnswer(s.testAnswers, s.currentQuestion, answer))
  }

  /** `toggleSavedCareer` on the list itself: remove every copy of a saved id, or
      append an unsaved one. */
  function ToggleSaved(saved: seq<int>, id: int): (r: seq<int>)
    ensures id in saved ==> id !in r && Seqs.IsSubsequence(r, saved)
    ensures id in saved ==> |r| == |saved| - Seqs.Count(x => x == id, saved)
    ensures id !in saved ==> r == saved + [id]
    ensures forall x :: x != id ==> (x in r <==> x in saved)
  {
    if id in saved then
      Seqs.FilterIsSubsequence(x => x != id, saved);
      Seqs.FilterLength(x => x != id, saved);
      Seqs.CountComplement(x => x == id, x => x != id, saved);
      Seqs.Filter(x => x != id, saved)
    else saved + [id]
  }

  /** `toggleSavedCareer`. */
  function ToggleSavedCareer(s: Session, id: int): (r: Session)
    ensures (id in r.savedCareers) == (id !in s.savedCareers)
    ensures r.(savedCareers := s.savedCareers) == s
  {
    s.(savedCareers := ToggleSaved(s.savedCareers, id))
  }

  /** Toggling an unsaved id twice gives back the original list, order included. */
  lemma ToggleTwiceRestores(saved: seq<int>, id: int)
    requires id !in saved
    ensures ToggleSaved(ToggleSaved(saved, id), id) == saved
  {
    var p := (x: int) => x != id;
    Seqs.FilterAppend(p, saved, [id]);
    Seqs.FilterKeepsAll(p, saved);
    assert Seqs.Filter(p, [id]) == [];
  }

  /** Toggling keeps a duplicate-free list duplicate-free. */
  lemma ToggleKeepsNoDuplicates(saved: seq<int>, id: int)
    requires Seqs.NoDuplicates(saved)
    ensures Seqs.NoDuplicates(ToggleSaved(saved, id))
  {
    if id in saved {
      Seqs.FilterNoDuplicates(x => x != id, saved);
    }
  }

  /** Spelled-out scenarios: navigating home from the start, then to the quiz and
      back, and three presses of back at the root. */
  lemma NavigationScenarios()
    ensures Navigate(Initial(), Home).navigationHistory == [Onboarding, Home]
    ensures Navigate(Initial(), Home).currentScreen == Home
    ensures GoBack(Navigate(Navigate(Initial(), Home), Test)).currentScreen == Home
    ensures GoBackTimes(Initial(), 3) == Initial()
  {
    NavigateThenGoBack(Navigate(Initial(), Home), Test);
  }
}

=== FILE: app_data.dfy ===
/** The records the application shows and the static catalogue it ships with:
    four careers, four mentors and the five quiz questions. */
module AppData {

  /** A career the recommendations screen can show. */
  datatype Career = Career(
    id: int,
    title: string,
    company: string,
    matchScore: int,
    salary: string,
    location: string,
    tags: seq<string>,
    icon: string,
    description: string,
    skills: seq<string>,
    outlook: string,
    requirements: string)

  /** A mentor a session can be booked with. The star rating, a fractional number, is
      not part of the model. */
  datatype Mentor = Mentor(
    id: int,
    name: string,
    role: string,
    experience: string,
    sessions: nat,
    price: string,
    avatar: string,
    expertise: seq<string>)

  /** A quiz question and its answer options. */
  datatype Question = Question(question: string, options: seq<string>)

  const Careers: seq<Career> := [
    Career(1, "UX/UI Designer", "Tech Startup", 95, "$65k - $95k", "Remote",
      ["Creative", "Tech", "Design"], "🎨",
      "Create intuitive and beautiful user experiences for digital products. Work closely with product managers and developers to bring designs to life.",
      ["Figma", "User Research", "Prototyping", "Design Systems"],
      "Growing 13% faster than average", "Bachelor's in Design or related field"),
    Career(2, "Data Scientist", "Fortune 500", 88, "$80k - $120k", "New York",
      ["Analytics", "Tech", "Research"], "📊",
      "Analyze complex data to drive business decisions and insights. Build machine learning models and create data visualizations.",
      ["Python", "Machine Learning", "Statistics", "SQL"],
      "Growing 22% faster than average", "Master's in Data Science or Statistics"),
    Career(3, "Product Manager", "SaaS Company", 82, "$90k - $130k", "San Francisco",
      ["Strategy", "Tech", "Leadership"], "🚀",
      "Lead product development from conception to launch. Work with cross-functional teams to deliver products that users love.",
      ["Product Strategy", "Agile", "Analytics", "Communication"],
      "Growing 19% faster than average", "Bachelor's degree + 3+ years experience"),
    Career(4, "Software Engineer", "Big Tech", 78, "$100k - $150k", "Seattle",
      ["Programming", "Tech", "Problem Solving"], "💻",
      "Build scalable software solutions and work on cutting-edge technology projects.",
      ["JavaScript", "React", "Node.js", "System Design"],
      "Growing 25% faster than average", "Bachelor's in Computer Science")
  ]

  const Mentors: seq<Mentor> := [
    Mentor(1, "Sarah Chen", "Senior UX Designer at Google", "8 years", 127, "$45/hour",
      "/placeholder.svg?height=60&width=60", ["UX Design", "Career Transition", "Portfolio Review"]),
    Mentor(2, "Marcus Johnson", "Data Science Manager at Netflix", "10 years", 89, "$60/hour",
      "/placeholder.svg?height=60&width=60", ["Data Science", "Machine Learning", "Leadership"]),
    Mentor(3, "Emily Rodriguez", "Product Director at Spotify", "12 years", 156, "$75/hour",
      "/placeholder.svg?height=60&width=60", ["Product Strategy", "Team Building", "Startup Advice"]),
    Mentor(4, "David Kim", "Engineering Manager at Meta", "9 years", 203, "$55/hour",
      "/placeholder.svg?height=60&width=60", ["Software Engineering", "Technical Leadership", "System Design"])
  ]

  const Questions: seq<Question> := [
    Question("What type of work environment energizes you most?",
      ["Collaborative team settings", "Independent, focused work",
       "Dynamic, fast-paced environments", "Structured, organized spaces"]),
    Question("Which activity sounds most appealing to you?",
      ["Solving complex problems", "Creating something new",
       "Helping others succeed", "Analyzing data and trends"]),
    Question("What motivates you most in your career?",
      ["Making a positive impact", "Financial success", "Creative expression", "Continuous learning"]),
    Question("How do you prefer to learn new skills?",
      ["Hands-on practice", "Reading and research", "Learning from others", "Trial and error"]),
    Question("What's your ideal work-life balance?",
      ["Clear boundaries between work and personal time", "Flexible schedule that varies",
       "Work that feels like a passion", "Traditional 9-5 structure"])
  ]

  /** Career ids are 1 to 4, in order, and match scores strictly decrease down the list. */
  lemma CareersShape()
    ensures |Careers| == 4
    ensures forall i :: 0 <= i < |Careers| ==> Careers[i].id == i + 1
    ensures Careers[0].matchScore == 95 && Careers[1].matchScore == 88
    ensures Careers[2].matchScore == 82 && Careers[3].matchScore == 78
    ensures forall i, j :: 0 <= i < j < |Careers| ==> Careers[i].matchScore > Careers[j].matchScore
    ensures forall i, j :: 0 <= i < j < |Careers| ==> Careers[i].id != Careers[j].id
  {
  }

  /** Every career carries the tag "Tech", second in its tag list. */
  lemma CareersAllTech()
    ensures forall i :: 0 <= i < |Careers| ==> |Careers[i].tags| == 3 && Careers[i].tags[1] == "Tech"
  {
  }

  /** Mentor ids are 1 to 4, in order, hence distinct. */
  lemma MentorsShape()
    ensures |Mentors| == 4
    ensures forall i :: 0 <= i < |Mentors| ==> Mentors[i].id == i + 1
    ensures forall i, j :: 0 <= i < j < |Mentors| ==> Mentors[i].id != Mentors[j].id
  {
  }

  /** Five questions with four options each. */
  lemma QuestionsShape()
    ensures |Questions| == 5
    ensures forall i :: 0 <= i < |Questions| ==> |Questions[i].options| == 4
  {
  }
}

=== FILE: job_tracker.dfy ===
/** The job-application tracker: a list of applications with a guarded add form,
    per-id status updates, status statistics, tab filters and the forward-only
    status buttons of each card. */
module JobTracker {
  import opened Wrappers
  import Seqs

  datatype Status = Applied | Interview | Offer | Rejected | Withdrawn
  datatype Priority = High | Medium | Low

  datatype Application = Application(
    id: int,
    company: string,
    position: string,
    location: string,
    salary: string,
    status: Status,
    appliedDate: string,
    lastUpdate: string,
    notes: string,
    interviewDate: Option<string>,
    priority: Priority)

  /** The add form's fields. */
  datatype Form = Form(
    company: string,
    position: string,
    location: string,
    salary: string,
    status: Status,
    notes: string,
    priority: Priority)

  datatype Tracker = Tracker(applications: seq<Application>, form: Form, showAddForm: bool)

  /** The form as it starts and as it is reset after an add. */
  const EmptyForm: Form := Form("", "", "", "", Applied, "", Medium)

  /** The three applications the screen starts with. */
  const InitialApplications: seq<Application> := [
    Application(1, "Google", "UX Designer", "Mountain View, CA", "$120k - $150k", Interview,
      "2024-01-15", "2024-01-20", "Phone screening went well. Technical interview scheduled.",
      Some("2024-01-25"), High),
    Application(2, "Spotify", "Product Designer", "New York, NY", "$100k - $130k", Applied,
      "2024-01-18", "2024-01-18", "Applied through company website. Waiting for response.",
      None, Medium),
    Application(3, "Airbnb", "Senior UX Researcher", "San Francisco, CA", "$130k - $160k", Offer,
      "2024-01-10", "2024-01-22", "Received offer! Need to respond by Jan 30th.",
      None, High)
  ]

  function InitialTracker(): Tracker {
    Tracker(InitialApplications, EmptyForm, false)
  }

  /** The add button works only when company and position are both filled in. */
  predicate CanAdd(f: Form) {
    f.company != "" && f.position != ""
  }

  /** The application built from the form; `id` stands for `Date.now()` and `today`
      for the current date. */
  function FromForm(f: Form, id: int, today: string): Application {
    Application(id, f.company, f.position, f.location, f.salary, f.status, today, today,
      f.notes, None, f.priority)
  }

  /** `handleAddApplication`. */
  function AddApplication(t: Tracker, id: int, today: string): (r: Tracker)
    ensures !CanAdd(t.form) ==> r == t
    ensures CanAdd(t.form) ==>
      && |r.applications| == |t.applications| + 1
      && r.applications[0] == FromForm(t.form, id, today)
      && r.applications[1..] == t.applications
      && r.form == EmptyForm && r.form.status == Applied && r.form.priority == Medium
      && !r.showAddForm
  {
    if CanAdd(t.form) then
      Tracker([FromForm(t.form, id, today)] + t.applications, EmptyForm, false)
    else t
  }

  /** `updateApplicationStatus` on the list: every entry carrying `id` gets the new
      status and the update date; nothing else changes. */
  function UpdateStatus(apps: seq<Application>, id: int, status: Status, today: string): (r: seq<Application>)
    ensures |r| == |apps|
    ensures forall i :: 0 <= i < |apps| && apps[i].id == id ==>
      r[i] == apps[i].(status := status, lastUpdate := today)
    ensures forall i :: 0 <= i < |apps| && apps[i].id != id ==> r[i] == apps[i]
  {
    seq(|apps|, i requires 0 <= i < |apps| =>
      if apps[i].id == id then apps[i].(status := status, lastUpdate := today) else apps[i])
  }

  /** Setting the same status twice is setting it once (with the later date). */
  lemma UpdateStatusIdempotent(apps: seq<Application>, id: int, status: Status, d1: string, d2: string)
    ensures UpdateStatus(UpdateStatus(apps, id, status, d1), id, status, d2) == UpdateStatus(apps, id, status, d2)
  {
  }

  /** The entry has the given status. */
  function HasStatus(s: Status): Application -> bool {
    (a: Application) => a.status == s
  }

  /** The number of applications with status `s`: the independent reference for the
      statistics below. */
  function CountStatus(apps: seq<Application>, s: Status): nat {
    Seqs.Count(HasStatus(s), apps)
  }

  /** The accumulator of `getStatusStats`'s `reduce`: a record with a key only for
      the statuses seen so far. */
  type Tally = map<Status, nat>

  function Bump(acc: Tally, s: Status): Tally {
    acc[s := (if s in acc then acc[s] else 0) + 1]
  }

  /** `applications.reduce(...)`, left to right. */
  function TallyFrom(acc: Tally, apps: seq<Application>): Tally
    decreases |apps|
  {
    if apps == [] then acc else TallyFrom(Bump(acc, apps[0].status), apps[1..])
  }

  /** `stats[s] || 0`. */
  function Get(t: Tally, s: Status): nat {
    if s in t then t[s] else 0
  }

  datatype Stats = Stats(total: nat, applied: nat, interview: nat, offer: nat, rejected: nat)

  /** The tallies the reduce produces agree with a plain count of each status. */
  lemma {:induction false} TallyCounts(acc: Tally, apps: seq<Application>, s: Status)
    ensures Get(TallyFrom(acc, apps), s) == Get(acc, s) + CountStatus(apps, s)
    decreases |apps|
  {
    if apps != [] {
      TallyCounts(Bump(acc, apps[0].status), apps[1..], s);
    }
  }

  /** `getStatusStats`. */
  function GetStatusStats(apps: seq<Application>): (st: Stats)
    ensures st.total == |apps|
    ensures st.applied == CountStatus(apps, Applied)
    ensures st.interview == CountStatus(apps, Interview)
    ensures st.offer == CountStatus(apps, Offer)
    ensures st.rejected == CountStatus(apps, Rejected)
  {
    var t := TallyFrom(map[], apps);
    TallyCounts(map[], apps, Applied);
    TallyCounts(map[], apps, Interview);
    TallyCounts(map[], apps, Offer);
    TallyCounts(map[], apps, Rejected);
    Stats(|apps|, Get(t, Applied), Get(t, Interview), Get(t, Offer), Get(t, Rejected))
  }

  /** An add raises the total by one and the count of the form's status by one, and
      leaves the count of every other status as it was. */
  lemma AddUpdatesStats(t: Tracker, id: int, today: string, s: Status)
    requires CanAdd(t.form)
    ensures GetStatusStats(AddApplication(t, id, today).applications).total == GetStatusStats(t.applications).total + 1
    ensures CountStatus(AddApplication(t, id, today).applications, s)
         == CountStatus(t.applications, s) + (if s == t.form.status then 1 else 0)
  {
    var apps := AddApplication(t, id, today).applications;
    assert apps[0].status == t.form.status && apps[1..] == t.applications;
  }

  /** With the withdrawn count, which the statistics leave out, the four counts add
      up to the total. */
  lemma {:induction false} StatsAddUp(apps: seq<Application>)
    ensures var st := GetStatusStats(apps);
      st.applied + st.interview + st.offer + st.rejected + CountStatus(apps, Withdrawn) == st.total
    decreases |apps|
  {
    if apps != [] {
      StatsAddUp(apps[1..]);
    }
  }

  predicate IsActive(a: Application) {
    a.status == Interview || a.status == Offer
  }

  /** The "Active" tab: interviews and offers, in list order. */
  function ActiveTab(apps: seq<Application>): (r: seq<Application>)
    ensures forall a :: a in r <==> a in apps && (a.status == Interview || a.status == Offer)
    ensures Seqs.IsSubsequence(r, apps)
  {
    Seqs.FilterIsSubsequence(IsActive, apps);
    Seqs.Filter(IsActive, apps)
  }

  /** The "Applied" tab. */
  function AppliedTab(apps: seq<Application>): (r: seq<Application>)
    ensures forall a :: a in r <==> a in apps && a.status == Applied
    ensures Seqs.IsSubsequence(r, apps)
  {
    Seqs.FilterIsSubsequence(HasStatus(Applied), apps);
    Seqs.Filter(HasStatus(Applied), apps)
  }

  /** The "Offers" tab. */
  function OffersTab(apps: seq<Application>): (r: seq<Application>)
    ensures forall a :: a in r <==> a in apps && a.status == Offer
    ensures Seqs.IsSubsequence(r, apps)
  {
    Seqs.FilterIsSubsequence(HasStatus(Offer), apps);
    Seqs.Filter(HasStatus(Offer), apps)
  }

  /** The tab badges agree with the tabs: "Active" shows interview + offer, which is
      the Active tab's length, and so on. */
  lemma TabCountsMatchStats(apps: seq<Application>)
    ensures |ActiveTab(apps)| == GetStatusStats(apps).interview + GetStatusStats(apps).offer
    ensures |AppliedTab(apps)| == GetStatusStats(apps).applied
    ensures |OffersTab(apps)| == GetStatusStats(apps).offer
  {
    Seqs.FilterLength(IsActive, apps);
    Seqs.FilterLength(HasStatus(Applied), apps);
    Seqs.FilterLength(HasStatus(Offer), apps);
    Seqs.CountDisjoint(HasStatus(Interview), HasStatus(Offer), IsActive, apps);
  }

  /** The status control a card offers: "Mark as Interview" on an applied card, "Got
      Offer" on an interview card, nothing otherwise. */
  function CardAction(s: Status): (next: Option<Status>)
    ensures next.Some? <==> s == Applied || s == Interview
    ensures next.Some? ==> Rank(next.value) == Rank(s) + 1
  {
    match s
    case Applied => Some(Interview)
    case Interview => Some(Offer)
    case _ => None
  }

  /** Position on the ladder applied < interview < offer; the other statuses are off
      the ladder. */
  function Rank(s: Status): int {
    match s
    case Applied => 0
    case Interview => 1
    case Offer => 2
    case _ => -1
  }

  /** Clicking a card's status control, if it has one. */
  function ClickCard(apps: seq<Application>, card: Application, today: string): (r: seq<Application>)
    ensures |r| == |apps|
    ensures card.status != Applied && card.status != Interview ==> r == apps
    ensures forall i :: 0 <= i < |apps| && apps[i].id != card.id ==> r[i] == apps[i]
    ensures card.status == Applied || card.status == Interview ==>
      forall i :: 0 <= i < |apps| && apps[i].id == card.id ==>
        && Rank(r[i].status) == Rank(card.status) + 1
        && r[i].lastUpdate == today
        && r[i].(status := apps[i].status, lastUpdate := apps[i].lastUpdate) == apps[i]
  {
    match CardAction(card.status)
    case Some(next) => UpdateStatus(apps, card.id, next, today)
    case None => apps
  }

  /** Card clicks only ever move an application forward, as long as no other entry
      shares its id (ids come from `Date.now()` and are not guaranteed unique). */
  lemma CardClickMovesForward(apps: seq<Application>, k: nat, today: string)
    requires k < |apps|
    requires forall j :: 0 <= j < |apps| && j != k ==> apps[j].id != apps[k].id
    ensures var r := ClickCard(apps, apps[k], today);
      && |r| == |apps|
      && (CardAction(apps[k].status).Some? ==> Rank(r[k].status) == Rank(apps[k].status) + 1)
      && (CardAction(apps[k].status).None? ==> r == apps)
      && forall j :: 0 <= j < |apps| && j != k ==> r[j] == apps[j]
  {
  }

  /** The starting list: one application of each of interview, applied and offer. */
  lemma InitialStats()
    ensures GetStatusStats(InitialApplications) == Stats(3, 1, 1, 1, 0)
  {
  }
}

=== FILE: mentorship.dfy ===
/** The mentorship screen: a case-insensitive search over the mentors, and the booking
    flow select → book → confirm with its guards and its reset. */
module Mentorship {
  import opened Wrappers
  import opened Text
  import opened AppData
  import Seqs

  /** The search test for one mentor: the lowercased term occurs in the lowercased
      name, role or one of the expertise entries. */
  predicate MentorMatches(m: Mentor, term: string) {
    var t := Lower(term);
    || Contains(Lower(m.name), t)
    || Contains(Lower(m.role), t)
    || exists e :: e in m.expertise && Contains(Lower(e), t)
  }

  /** `filteredMentors`: the matching mentors, in list order. */
  function FilterMentors(ms: seq<Mentor>, term: string): (r: seq<Mentor>)
    ensures forall m :: m in r <==> m in ms && MentorMatches(m, term)
    ensures Seqs.IsSubsequence(r, ms)
  {
    Seqs.FilterIsSubsequence((m: Mentor) => MentorMatches(m, term), ms);
    Seqs.Filter((m: Mentor) => MentorMatches(m, term), ms)
  }

  /** An empty search box shows every mentor, in order: every string includes "". */
  lemma EmptySearchKeepsAll(ms: seq<Mentor>)
    ensures FilterMentors(ms, "") == ms
  {
    forall i | 0 <= i < |ms| ensures MentorMatches(ms[i], "") {
      ContainsEmpty(Lower(ms[i].name));
    }
    Seqs.FilterKeepsAll((m: Mentor) => MentorMatches(m, ""), ms);
  }

  /** A booking slot; the button of an unavailable slot is disabled. */
  datatype Slot = Slot(time: string, available: bool)

  const AvailableTimes: seq<Slot> := [
    Slot("Today 2:00 PM", true),
    Slot("Today 4:00 PM", false),
    Slot("Tomorrow 10:00 AM", true),
    Slot("Tomorrow 2:00 PM", true),
    Slot("Friday 9:00 AM", true),
    Slot("Friday 3:00 PM", true)
  ]

  datatype Step = Select | Book | Confirm
  datatype SessionType = Video | ChatSession

  /** A booked session; `id` stands for `Date.now()`. */
  datatype BookedSession = BookedSession(
    id: int,
    mentor: Mentor,
    time: string,
    kind: SessionType,
    goal: string,
    status: string)

  /** The screen's state. */
  datatype Booking = Booking(
    searchTerm: string,
    selectedMentor: Option<Mentor>,
    step: Step,
    selectedTime: string,
    sessionType: SessionType,
    sessionGoal: string,
    booked: seq<BookedSession>)

  function InitialBooking(): Booking {
    Booking("", None, Select, "", Video, "", [])
  }

  /** `handleMentorSelect`. */
  function SelectMentor(b: Booking, m: Mentor): (r: Booking)
    ensures r.selectedMentor == Some(m) && r.step == Book
    ensures r.(selectedMentor := b.selectedMentor, step := b.step) == b
  {
    b.(selectedMentor := Some(m), step := Book)
  }

  /** `handleBookSession`: with a mentor, a time and a goal, append one upcoming
      session and move to the confirmation; otherwise do nothing. */
  function BookSession(b: Booking, id: int): (r: Booking)
    ensures b.selectedMentor.None? || b.selectedTime == "" || b.sessionGoal == "" ==> r == b
    ensures b.selectedMentor.Some? && b.selectedTime != "" && b.sessionGoal != "" ==>
      && r.booked == b.booked + [BookedSession(id, b.selectedMentor.value, b.selectedTime,
                                               b.sessionType, b.sessionGoal, "upcoming")]
      && r.step == Confirm
      && r.(booked := b.booked, step := b.step) == b
  {
    if b.selectedMentor.Some? && b.selectedTime != "" && b.sessionGoal != "" then
      var session := BookedSession(id, b.selectedMentor.value, b.selectedTime, b.sessionType,
                                   b.sessionGoal, "upcoming");
      b.(booked := b.booked + [session], step := Confirm)
    else b
  }

  /** `handleBackToMentors`: back to the list with the mentor, time and goal cleared;
      the session type, the search and the booked sessions are kept. */
  function BackToMentors(b: Booking): (r: Booking)
    ensures r.step == Select && r.selectedMentor == None
    ensures r.selectedTime == "" && r.sessionGoal == ""
    ensures r.sessionType == b.sessionType && r.booked == b.booked && r.searchTerm == b.searchTerm
  {
    b.(step := Select, selectedMentor := None, selectedTime := "", sessionGoal := "")
  }

  /** What the screen renders. */
  datatype View = ConfirmView | BookView | MentorListView

  /** The confirmation takes precedence; the booking form needs the "book" step and a
      selected mentor; anything else shows the mentor list. */
  function ViewOf(b: Booking): (v: View)
    ensures v == ConfirmView <==> b.step == Confirm
    ensures v == BookView <==> b.step == Book && b.selectedMentor.Some?
  {
    if b.step == Confirm then ConfirmView
    else if b.step == Book && b.selectedMentor.Some? then BookView
    else MentorListView
  }

  /** What the user can do; which events are possible depends on the view. */
  datatype Event =
    | Search(term: string)
    | ClickMentor(mentor: Mentor)
    | PickSlot(slot: Slot)
    | PickType(kind: SessionType)
    | TypeGoal(goal: string)
    | ClickBook(id: int)
    | BookAnother

  /** The event is offered by what is on display: a mentor card can be clicked only if
      it is in the filtered list, a slot only if it is one of the available slots,
      and the book button only with a time and a goal. */
  predicate Allowed(b: Booking, e: Event) {
    match ViewOf(b)
    case MentorListView =>
      e.Search? || (e.ClickMentor? && e.mentor in FilterMentors(Mentors, b.searchTerm))
    case BookView =>
      || (e.PickSlot? && e.slot in AvailableTimes && e.slot.available)
      || e.PickType? || e.TypeGoal?
      || (e.ClickBook? && b.selectedTime != "" && b.sessionGoal != "")
    case ConfirmView => e.BookAnother?
  }

  function Apply(b: Booking, e: Event): Booking {
    match e
    case Search(term) => b.(searchTerm := term)
    case ClickMentor(m) => SelectMentor(b, m)
    case PickSlot(slot) => b.(selectedTime := slot.time)
    case PickType(kind) => b.(sessionType := kind)
    case TypeGoal(goal) => b.(sessionGoal := goal)
    case ClickBook(id) => BookSession(b, id)
    case BookAnother => BackToMentors(b)
  }

  predicate AllowedRun(b: Booking, events: seq<Event>)
    decreases |events|
  {
    events == [] || (Allowed(b, events[0]) && AllowedRun(Apply(b, events[0]), events[1..]))
  }

  function Play(b: Booking, events: seq<Event>): Booking
    decreases |events|
  {
    if events == [] then b else Play(Apply(b, events[0]), events[1..])
  }

  /** The time can only have been set from an enabled slot button. */
  predicate BookableTime(t: string) {
    exists i :: 0 <= i < |AvailableTimes| && AvailableTimes[i].available && AvailableTimes[i].time == t
  }

  /** The booking invariant: past the list a mentor is selected; the chosen time is
      empty or an available slot; every booked session is upcoming at an available
      slot with a goal; and the confirmation describes the last booking. */
  predicate Consistent(b: Booking) {
    && (b.step != Select ==> b.selectedMentor.Some?)
    && (b.selectedTime == "" || BookableTime(b.selectedTime))
    && (forall k :: 0 <= k < |b.booked| ==>
          b.booked[k].status == "upcoming" && BookableTime(b.booked[k].time) && b.booked[k].goal != "")
    && (b.step == Confirm ==>
          && b.booked != []
          && b.booked[|b.booked| - 1].mentor == b.selectedMentor.value
          && b.booked[|b.booked| - 1].time == b.selectedTime
          && b.booked[|b.booked| - 1].goal == b.sessionGoal
          && b.booked[|b.booked| - 1].kind == b.sessionType)
  }

  lemma InitialConsistent()
    ensures Consistent(InitialBooking())
  {
  }

  /** One allowed event keeps the booking consistent. */
  lemma ApplyKeepsConsistent(b: Booking, e: Event)
    requires Consistent(b) && Allowed(b, e)
    ensures Consistent(Apply(b, e))
  {
    match e
    case PickSlot(slot) =>
      var i :| 0 <= i < |AvailableTimes| && AvailableTimes[i] == slot;
      assert BookableTime(slot.time);
    case ClickBook(id) =>
      var r := BookSession(b, id);
      forall k | 0 <= k < |r.booked|
        ensures r.booked[k].status == "upcoming" && BookableTime(r.booked[k].time) && r.booked[k].goal != ""
      {
        if k < |b.booked| {
          assert r.booked[k] == b.booked[k];
        }
      }
    case _ =>
  }

  /** Whatever the user does on the screen, the booking stays consistent. */
  lemma {:induction false} PlayKeepsConsistent(b: Booking, events: seq<Event>)
    requires Consistent(b) && AllowedRun(b, events)
    ensures Consistent(Play(b, events))
    decreases |events|
  {
    if events != [] {
      ApplyKeepsConsistent(b, events[0]);
      PlayKeepsConsistent(Apply(b, events[0]), events[1..]);
    }
  }

  /** The slot marked unavailable is never booked. */
  lemma UnavailableSlotNeverBooked(events: seq<Event>, k: nat)
    requires AllowedRun(InitialBooking(), events)
    requires k < |Play(InitialBooking(), events).booked|
    ensures Play(InitialBooking(), events).booked[k].time != "Today 4:00 PM"
  {
    InitialConsistent();
    PlayKeepsConsistent(InitialBooking(), events);
    var t := Play(InitialBooking(), events).booked[k].time;
    var i :| 0 <= i < |AvailableTimes| && AvailableTimes[i].available && AvailableTimes[i].time == t;
    assert i != 1;
  }

  /** A complete booking from a fresh screen: pick a listed mentor, a slot and a goal,
      book, and the confirmation shows that one session. */
  lemma BookingScenario(id: int)
    ensures var b := Play(InitialBooking(),
      [ClickMentor(Mentors[0]), PickSlot(AvailableTimes[0]), TypeGoal("Portfolio review"), ClickBook(id)]);
      && ViewOf(b) == ConfirmView
      && b.booked == [BookedSession(id, Mentors[0], "Today 2:00 PM", Video, "Portfolio review", "upcoming")]
  {
    var events := [ClickMentor(Mentors[0]), PickSlot(AvailableTimes[0]), TypeGoal("Portfolio review"), ClickBook(id)];
    var b1 := Apply(InitialBooking(), events[0]);
    var b2 := Apply(b1, events[1]);
    var b3 := Apply(b2, events[2]);
    var b4 := Apply(b3, events[3]);
    assert Play(b4, []) == b4;
    assert events[3..][1..] == [];
    assert Play(b3, events[3..]) == b4;
    assert events[2..][1..] == events[3..];
    assert Play(b2, events[2..]) == b4;
    assert events[1..][1..] == events[2..];
    assert Play(b1, events[1..]) == b4;
  }

  /** The lowercased search term "leadership". */
  lemma LowerLeadership()
    ensures Lower("leadership") == "leadership"
  {
  }

  lemma LowerLeadershipEntry()
    ensures Lower("Leadership") == "leadership"
  {
  }

  lemma LowerTechnicalLeadershipEntry()
    ensures Lower("Technical Leadership") == "technical leadership"
  {
  }

  /** A string lacking the letter `c` in both cases does not include, once lowercased,
      a term that has `c` at position `k`. */
  lemma LacksLetter(s: string, term: string, k: nat)
    requires k < |term| && IsLower(term[k])
    requires term[k] !in s && UpperChar(term[k]) !in s
    ensures !Contains(Lower(s), term)
  {
    LowerLacks(s, term[k]);
    MissingCharExcludes(Lower(s), term, k);
  }

  /** A mentor none of whose fields includes the lowercased term is filtered out. */
  lemma NoFieldMatches(m: Mentor, term: string)
    requires !Contains(Lower(m.name), Lower(term)) && !Contains(Lower(m.role), Lower(term))
    requires forall i :: 0 <= i < |m.expertise| ==> !Contains(Lower(m.expertise[i]), Lower(term))
    ensures !MentorMatches(m, term)
  {
  }

  /** Without a "p" the text cannot include "leadership". */
  lemma LacksP(s: string)
    requires 'p' !in s && 'P' !in s
    ensures !Contains(Lower(s), "leadership")
  {
    LacksLetter(s, "leadership", 9);
  }

  /** Without an "h" the text cannot include "leadership". */
  lemma LacksH(s: string)
    requires 'h' !in s && 'H' !in s
    ensures !Contains(Lower(s), "leadership")
  {
    LacksLetter(s, "leadership", 7);
  }

  lemma SarahNameRoleLackLeadership()
    ensures !Contains(Lower("Sarah Chen"), "leadership")
    ensures !Contains(Lower("Senior UX Designer at Google"), "leadership")
  {
    LacksP("Sarah Chen");
    LacksP("Senior UX Designer at Google");
  }

  lemma SarahExpertiseLacksLeadership()
    ensures !Contains(Lower("UX Design"), "leadership")
    ensures !Contains(Lower("Career Transition"), "leadership")
    ensures !Contains(Lower("Portfolio Review"), "leadership")
  {
    LacksP("UX Design");
    LacksP("Career Transition");
    LacksH("Portfolio Review");
  }

  lemma EmilyNameRoleLackLeadership()
    ensures !Contains(Lower("Emily Rodriguez"), "leadership")
    ensures !Contains(Lower("Product Director at Spotify"), "leadership")
  {
    LacksP("Emily Rodriguez");
    LacksH("Product Director at Spotify");
  }

  lemma EmilyExpertiseLacksLeadership()
    ensures !Contains(Lower("Product Strategy"), "leadership")
    ensures !Contains(Lower("Team Building"), "leadership")
    ensures !Contains(Lower("Startup Advice"), "leadership")
  {
    LacksH("Product Strategy");
    LacksP("Team Building");
    LacksH("Startup Advice");
  }

  /** Sarah Chen: no field mentions "leadership". */
  lemma SarahDoesNotMatch()
    ensures !MentorMatches(Mentors[0], "leadership")
  {
    var m := Mentors[0];
    assert m.name == "Sarah Chen" && m.role == "Senior UX Designer at Google";
    assert m.expertise == ["UX Design", "Career Transition", "Portfolio Review"];
    LowerLeadership();
    SarahNameRoleLackLeadership();
    SarahExpertiseLacksLeadership();
    NoFieldMatches(m, "leadership");
  }

  /** Emily Rodriguez: no field mentions "leadership". */
  lemma EmilyDoesNotMatch()
    ensures !MentorMatches(Mentors[2], "leadership")
  {
    var m := Mentors[2];
    assert m.name == "Emily Rodriguez" && m.role == "Product Director at Spotify";
    assert m.expertise == ["Product Strategy", "Team Building", "Startup Advice"];
    LowerLeadership();
    EmilyNameRoleLackLeadership();
    EmilyExpertiseLacksLeadership();
    NoFieldMatches(m, "leadership");
  }

  /** Marcus Johnson and David Kim list leadership among their expertise. */
  lemma LeadersMatch()
    ensures MentorMatches(Mentors[1], "leadership") && MentorMatches(Mentors[3], "leadership")
  {
    LowerLeadership();
    LowerLeadershipEntry();
    LowerTechnicalLeadershipEntry();
    assert OccursAt("leadership", "leadership", 0);
    assert OccursAt("technical leadership", "leadership", 10);
    assert Mentors[1].expertise[2] == "Leadership";
    assert Mentors[3].expertise[1] == "Technical Leadership";
  }

  /** Searching "leadership" finds exactly Marcus Johnson and David Kim, in that order. */
  lemma LeadershipSearch()
    ensures FilterMentors(Mentors, "leadership") == [Mentors[1], Mentors[3]]
  {
    MentorsShape();
    SarahDoesNotMatch();
    EmilyDoesNotMatch();
    LeadersMatch();
    Seqs.FilterOfFour((m: Mentor) => MentorMatches(m, "leadership"), Mentors);
  }
}

=== FILE: notifications.dfy ===
/** The notifications screen: read state per notification, the unread count, the
    "Today" and "Earlier" groups and what a click on a card does. */
module Notifications {
  import opened Wrappers
  import opened Text
  import opened AppContext
  import Seqs

  datatype Kind = Reminder | Achievement | Message | Opportunity

  /** A notification; its icon and colour are presentation and not modelled. */
  datatype Notification = Notification(
    id: int,
    kind: Kind,
    title: string,
    description: string,
    time: string,
    read: bool,
    actionable: bool)

  const InitialNotifications: seq<Notification> := [
    Notification(1, Reminder, "Mentor Session Tomorrow", "Video call with Sarah Chen at 2:00 PM",
      "2 hours ago", false, true),
    Notification(2, Achievement, "New Achievement Unlocked!", "You've completed your first skill assessment",
      "1 day ago", false, false),
    Notification(3, Opportunity, "New Job Match Found", "3 new UX Designer positions match your profile",
      "2 days ago", true, true),
    Notification(4, Message, "Message from Mentor", "Sarah Chen sent you course recommendations",
      "3 days ago", true, true)
  ]

  predicate IsUnread(n: Notification) {
    !n.read
  }

  /** The "Unread" tab: the unread notifications in their original order. */
  function UnreadTab(ns: seq<Notification>): (r: seq<Notification>)
    ensures forall n :: n in r <==> n in ns && !n.read
    ensures Seqs.IsSubsequence(r, ns)
  {
    Seqs.FilterIsSubsequence(IsUnread, ns);
    Seqs.Filter(IsUnread, ns)
  }

  /** `unreadCount`. */
  function UnreadCount(ns: seq<Notification>): (c: nat)
    ensures c == Seqs.Count(IsUnread, ns)
    ensures c == |UnreadTab(ns)|
  {
    Seqs.FilterLength(IsUnread, ns);
    |Seqs.Filter(IsUnread, ns)|
  }

  /** `markAsRead`: every entry with the id becomes read, the rest stay as they were. */
  function MarkAsRead(ns: seq<Notification>, id: int): (r: seq<Notification>)
    ensures |r| == |ns|
    ensures forall i :: 0 <= i < |ns| && ns[i].id == id ==> r[i] == ns[i].(read := true)
    ensures forall i :: 0 <= i < |ns| && ns[i].id != id ==> r[i] == ns[i]
  {
    seq(|ns|, i requires 0 <= i < |ns| => if ns[i].id == id then ns[i].(read := true) else ns[i])
  }

  /** `markAllAsRead`. */
  function MarkAllAsRead(ns: seq<Notification>): (r: seq<Notification>)
    ensures |r| == |ns|
    ensures forall i :: 0 <= i < |ns| ==> r[i] == ns[i].(read := true)
  {
    seq(|ns|, i requires 0 <= i < |ns| => ns[i].(read := true))
  }

  /** Marking the same id twice changes nothing the second time. */
  lemma MarkAsReadIdempotent(ns: seq<Notification>, id: int)
    ensures MarkAsRead(MarkAsRead(ns, id), id) == MarkAsRead(ns, id)
  {
  }

  /** Marking everything read is idempotent. */
  lemma MarkAllAsReadIdempotent(ns: seq<Notification>)
    ensures MarkAllAsRead(MarkAllAsRead(ns)) == MarkAllAsRead(ns)
  {
  }

  /** No entry is unread afterwards: the count drops to zero. */
  lemma {:induction false} MarkAllClearsCount(ns: seq<Notification>)
    ensures UnreadCount(MarkAllAsRead(ns)) == 0
    decreases |ns|
  {
    var r := MarkAllAsRead(ns);
    Seqs.FilterLength(IsUnread, r);
    if |Seqs.Filter(IsUnread, r)| > 0 {
      var n := Seqs.Filter(IsUnread, r)[0];
      assert n in r;
    }
  }

  /** Marking one id read lowers the unread count by the number of unread entries
      carrying that id. */
  lemma {:induction false} MarkAsReadCount(ns: seq<Notification>, id: int)
    ensures UnreadCount(MarkAsRead(ns, id)) + Seqs.Count((n: Notification) => !n.read && n.id == id, ns)
      == UnreadCount(ns)
    decreases |ns|
  {
    if ns != [] {
      MarkAsReadCount(ns[1..], id);
      assert MarkAsRead(ns, id)[1..] == MarkAsRead(ns[1..], id);
    }
  }

  /** Something is unread exactly when the unread count is positive. */
  lemma UnreadCountPositive(ns: seq<Notification>)
    ensures UnreadCount(ns) > 0 <==> exists i :: 0 <= i < |ns| && !ns[i].read
  {
    if exists i :: 0 <= i < |ns| && !ns[i].read {
      var i :| 0 <= i < |ns| && !ns[i].read;
      assert ns[i] in UnreadTab(ns);
    }
    if UnreadCount(ns) > 0 {
      assert UnreadTab(ns)[0] in UnreadTab(ns);
    }
  }

  /** The "Mark all read" control is shown exactly when something is unread. */
  function ShowsMarkAllControl(ns: seq<Notification>): (shown: bool)
    ensures shown <==> exists i :: 0 <= i < |ns| && !ns[i].read
  {
    UnreadCountPositive(ns);
    UnreadCount(ns) > 0
  }

  /** The "Today" group test: the time mentions "hours" or "Today". */
  predicate InToday(n: Notification) {
    Contains(n.time, "hours") || Contains(n.time, "Today")
  }

  /** The "Earlier" group test: the time mentions "day" or "week". */
  predicate InEarlier(n: Notification) {
    Contains(n.time, "day") || Contains(n.time, "week")
  }

  /** The "Today" list: the entries whose time mentions "hours" or "Today", in order. */
  function TodayGroup(ns: seq<Notification>): (r: seq<Notification>)
    ensures forall n :: n in r <==> n in ns && (Contains(n.time, "hours") || Contains(n.time, "Today"))
    ensures Seqs.IsSubsequence(r, ns)
  {
    Seqs.FilterIsSubsequence(InToday, ns);
    Seqs.Filter(InToday, ns)
  }

  /** The "Earlier" list: the entries whose time mentions "day" or "week", in order. */
  function EarlierGroup(ns: seq<Notification>): (r: seq<Notification>)
    ensures forall n :: n in r <==> n in ns && (Contains(n.time, "day") || Contains(n.time, "week"))
    ensures Seqs.IsSubsequence(r, ns)
  {
    Seqs.FilterIsSubsequence(InEarlier, ns);
    Seqs.Filter(InEarlier, ns)
  }

  /** The two groups are not a partition: a time that says "Today" also says "day",
      so such an entry is listed twice, and a time that mentions none of the four words
      is listed in neither group. */
  lemma GroupsDoNotPartition(n: Notification)
    ensures Contains(n.time, "Today") ==> InToday(n) && InEarlier(n)
    ensures !InToday(Notification(0, Message, "", "", "just now", false, false))
    ensures !InEarlier(Notification(0, Message, "", "", "just now", false, false))
  {
    if Contains(n.time, "Today") {
      assert OccursAt("Today", "day", 2);
      ContainsTransitive(n.time, "Today", "day");
    }
    MissingCharExcludes("just now", "hours", 0);
    MissingCharExcludes("just now", "Today", 0);
    MissingCharExcludes("just now", "day", 0);
    MissingCharExcludes("just now", "week", 2);
  }

  /** The first starting entry is listed under "Today" only. */
  lemma FirstIsToday()
    ensures InToday(InitialNotifications[0]) && !InEarlier(InitialNotifications[0])
  {
    assert InitialNotifications[0].time == "2 hours ago";
    assert OccursAt("2 hours ago", "hours", 2);
    MissingCharExcludes("2 hours ago", "day", 0);
    MissingCharExcludes("2 hours ago", "week", 0);
  }

  /** A time of the form "<n> day(s) ago" is listed under "Earlier" only. */
  lemma DaysAgoIsEarlier(t: string)
    requires t in {"1 day ago", "2 days ago", "3 days ago"}
    ensures Contains(t, "day") && !Contains(t, "hours") && !Contains(t, "Today")
  {
    assert OccursAt(t, "day", 2);
    MissingCharExcludes(t, "hours", 0);
    MissingCharExcludes(t, "Today", 0);
  }

  /** The starting list: one item today, three earlier, none in both; two unread. */
  lemma InitialGrouping()
    ensures TodayGroup(InitialNotifications) == [InitialNotifications[0]]
    ensures EarlierGroup(InitialNotifications) == InitialNotifications[1..]
    ensures UnreadCount(InitialNotifications) == 2
  {
    var ns := InitialNotifications;
    FirstIsToday();
    DaysAgoIsEarlier(ns[1].time);
    DaysAgoIsEarlier(ns[2].time);
    DaysAgoIsEarlier(ns[3].time);
    assert ns == [ns[0]] + ns[1..];
  }

  /** The list a card is rendered in; each wires the card's action differently. */
  datatype Section = TodaySection | EarlierSection | UnreadSection | RemindersSection | AchievementsSection

  /** The screen a card's action navigates to, if any. */
  function ActionTarget(section: Section, kind: Kind): Option<Screen> {
    match section
    case TodaySection =>
      if kind == Reminder then Some(Mentorship)
      else if kind == Opportunity then Some(Recommendations)
      else None
    case EarlierSection =>
      if kind == Opportunity then Some(Recommendations)
      else if kind == Message then Some(Mentorship)
      else None
    case UnreadSection =>
      if kind == Reminder then Some(Mentorship)
      else if kind == Opportunity then Some(Recommendations)
      else None
    case RemindersSection => Some(Mentorship)
    case AchievementsSection => Some(Progress)
  }

  /** A click on a card: mark it read, then run its action when it is actionable. */
  function ClickCard(ns: seq<Notification>, s: Session, card: Notification, section: Section)
    : (r: (seq<Notification>, Session))
    ensures r.0 == MarkAsRead(ns, card.id)
    ensures forall i :: 0 <= i < |ns| && ns[i].id == card.id ==> r.0[i].read
    ensures !card.actionable ==> r.1 == s
    ensures card.actionable && ActionTarget(section, card.kind).Some? ==>
      r.1 == Navigate(s, ActionTarget(section, card.kind).value)
    ensures ActionTarget(section, card.kind).None? ==> r.1 == s
  {
    var marked := MarkAsRead(ns, card.id);
    if card.actionable then
      match ActionTarget(section, card.kind)
      case Some(target) => (marked, Navigate(s, target))
      case None => (marked, s)
    else (marked, s)
  }
}

=== FILE: progress.dfy ===
/** The progress screen: the points earned from unlocked achievements, the unlocked
    badge, and the list of saved careers with its tab count and click. */
module Progress {
  import opened Wrappers
  import opened AppData
  import opened AppContext
  import opened Recommendations
  import Seqs

  /** An achievement; its icon and colour are presentation and not modelled. */
  datatype Achievement = Achievement(
    id: int,
    title: string,
    description: string,
    date: string,
    points: nat,
    unlocked: bool)

  const Achievements: seq<Achievement> := [
    Achievement(1, "Assessment Complete", "Completed personality and interest assessment", "2 days ago", 100, true),
    Achievement(2, "First Career Match", "Found 3 careers with 85%+ compatibility", "1 day ago", 150, true),
    Achievement(3, "Skill Explorer", "Analyzed skill gaps for career readiness", "Today", 200, true),
    Achievement(4, "Mentor Connection", "Book your first mentorship session", "Locked", 250, false),
    Achievement(5, "Course Completion", "Complete your first recommended course", "Locked", 300, false)
  ]

  predicate IsUnlocked(a: Achievement) {
    a.unlocked
  }

  /** The points of all entries, added up from the right. */
  function Points(achievements: seq<Achievement>): nat
    decreases |achievements|
  {
    if achievements == [] then 0 else achievements[0].points + Points(achievements[1..])
  }

  /** `reduce((sum, a) => sum + a.points, acc)`, left to right: the start value plus
      every entry's points. */
  function SumFrom(acc: nat, achievements: seq<Achievement>): (r: nat)
    ensures r == acc + Points(achievements)
    decreases |achievements|
  {
    if achievements == [] then acc else SumFrom(acc + achievements[0].points, achievements[1..])
  }

  /** The reference: the points of the unlocked entries, added up entry by entry. */
  function UnlockedPoints(achievements: seq<Achievement>): nat
    decreases |achievements|
  {
    if achievements == [] then 0
    else (if achievements[0].unlocked then achievements[0].points else 0) + UnlockedPoints(achievements[1..])
  }

  lemma {:induction false} SumFromAdds(acc: nat, achievements: seq<Achievement>)
    ensures SumFrom(acc, achievements) == acc + SumFrom(0, achievements)
    decreases |achievements|
  {
    if achievements != [] {
      SumFromAdds(acc + achievements[0].points, achievements[1..]);
      SumFromAdds(achievements[0].points, achievements[1..]);
    }
  }

  lemma {:induction false} FilterThenSum(achievements: seq<Achievement>)
    ensures SumFrom(0, Seqs.Filter(IsUnlocked, achievements)) == UnlockedPoints(achievements)
    decreases |achievements|
  {
    if achievements != [] {
      FilterThenSum(achievements[1..]);
      var rest := Seqs.Filter(IsUnlocked, achievements[1..]);
      if achievements[0].unlocked {
        var f := [achievements[0]] + rest;
        assert f[0] == achievements[0] && f[1..] == rest;
        SumFromAdds(achievements[0].points, rest);
      }
    }
  }

  /** `totalPoints`: the filter of the unlocked entries, summed by `reduce`, is the sum
      of the unlocked entries' points. */
  function TotalPoints(achievements: seq<Achievement>): (t: nat)
    ensures t == UnlockedPoints(achievements)
  {
    FilterThenSum(achievements);
    SumFrom(0, Seqs.Filter(IsUnlocked, achievements))
  }

  /** Unlocking one more achievement adds exactly its points. */
  lemma {:induction false} UnlockAddsPoints(achievements: seq<Achievement>, i: nat)
    requires i < |achievements| && !achievements[i].unlocked
    ensures TotalPoints(achievements[i := achievements[i].(unlocked := true)])
         == TotalPoints(achievements) + achievements[i].points
    decreases |achievements|
  {
    var after := achievements[i := achievements[i].(unlocked := true)];
    if i == 0 {
      assert after[1..] == achievements[1..];
    } else {
      UnlockAddsPoints(achievements[1..], i - 1);
      assert after[1..] == achievements[1..][i - 1 := achievements[i].(unlocked := true)];
    }
  }

  /** The unlocked badge: unlocked entries over all entries. */
  function UnlockedBadge(achievements: seq<Achievement>): (badge: (nat, nat))
    ensures badge.0 == Seqs.Count(IsUnlocked, achievements) && badge.0 <= badge.1
    ensures badge.1 == |achievements|
  {
    Seqs.FilterLength(IsUnlocked, achievements);
    (|Seqs.Filter(IsUnlocked, achievements)|, |achievements|)
  }

  /** The listed achievements earn 450 points. */
  lemma ShippedPoints()
    ensures TotalPoints(Achievements) == 450
  {
    var a := Achievements;
    assert a[4..][1..] == [] && a[3..][1..] == a[4..] && a[2..][1..] == a[3..] && a[1..][1..] == a[2..];
    assert UnlockedPoints(a[4..]) == 0;
    assert UnlockedPoints(a[3..]) == 0;
    assert UnlockedPoints(a[2..]) == 200;
    assert UnlockedPoints(a[1..]) == 350;
  }

  /** Three of the five listed achievements are unlocked. */
  lemma ShippedBadge()
    ensures UnlockedBadge(Achievements) == (3, 5)
  {
    var a := Achievements;
    assert a[4..][1..] == [] && a[3..][1..] == a[4..] && a[2..][1..] == a[3..] && a[1..][1..] == a[2..];
    assert Seqs.Count(IsUnlocked, a[4..]) == 0;
    assert Seqs.Count(IsUnlocked, a[3..]) == 0;
    assert Seqs.Count(IsUnlocked, a[2..]) == 1;
    assert Seqs.Count(IsUnlocked, a[1..]) == 2;
  }

  /** `savedCareersList`: the careers of the catalogue whose id is saved, in catalogue
      order. */
  function SavedCareersList(careers: seq<Career>, saved: seq<int>): (r: seq<Career>)
    ensures forall c :: c in r <==> c in careers && c.id in saved
    ensures Seqs.IsSubsequence(r, careers)
  {
    Seqs.FilterIsSubsequence((c: Career) => c.id in saved, careers);
    Seqs.Filter((c: Career) => c.id in saved, careers)
  }

  /** The list depends only on which ids are saved: their order and repetitions in
      `savedCareers` do not matter. */
  lemma SavedListDependsOnIdSet(careers: seq<Career>, saved: seq<int>, other: seq<int>)
    requires forall id :: id in saved <==> id in other
    ensures SavedCareersList(careers, saved) == SavedCareersList(careers, other)
  {
    Seqs.FilterCongruent((c: Career) => c.id in saved, (c: Career) => c.id in other, careers);
  }

  /** A catalogue without repeated careers gives a list without repeated careers, even
      when `savedCareers` repeats an id. */
  lemma SavedListNoDuplicates(careers: seq<Career>, saved: seq<int>)
    requires Seqs.NoDuplicates(careers)
    ensures Seqs.NoDuplicates(SavedCareersList(careers, saved))
  {
    Seqs.FilterNoDuplicates((c: Career) => c.id in saved, careers);
  }

  /** The "Saved (N)" tab count is the number of catalogue careers whose id is saved. */
  function SavedTabCount(careers: seq<Career>, saved: seq<int>): (n: nat)
    ensures n == Seqs.Count((c: Career) => c.id in saved, careers)
    ensures n <= |careers|
  {
    Seqs.FilterLength((c: Career) => c.id in saved, careers);
    |SavedCareersList(careers, saved)|
  }

  /** In a catalogue of four careers with ids 1 to 4, saving 2, 2 and 1 lists the
      first two careers once each, in catalogue order. */
  lemma SavedListOfFour(cs: seq<Career>)
    requires |cs| == 4 && cs[0].id == 1 && cs[1].id == 2 && cs[2].id == 3 && cs[3].id == 4
    ensures SavedCareersList(cs, [2, 2, 1]) == [cs[0], cs[1]]
  {
    var p := (c: Career) => c.id in [2, 2, 1];
    assert Seqs.Keep(p, cs[0]) == [cs[0]] && Seqs.Keep(p, cs[1]) == [cs[1]];
    assert Seqs.Keep(p, cs[2]) == [] && Seqs.Keep(p, cs[3]) == [];
    Seqs.FilterOfFour(p, cs);
  }

  /** Saving 2, 2 and 1 lists the first two careers once each, in catalogue order. */
  lemma SavedListExample()
    ensures SavedCareersList(Careers, [2, 2, 1]) == [Careers[0], Careers[1]]
  {
    CareersShape();
    SavedListOfFour(Careers);
  }

  /** A saved-career card opens its career exactly as a recommendation card does. */
  function ClickSavedCareer(s: Session, c: Career): (r: Session)
    ensures r.selectedCareer == Some(c) && r.currentScreen == CareerDetail
    ensures r.navigationHistory == s.navigationHistory + [CareerDetail]
    ensures Valid(r)
    ensures r.(selectedCareer := s.selectedCareer, currentScreen := s.currentScreen,
               navigationHistory := s.navigationHistory) == s
  {
    OpenCareer(s, c)
  }
}

=== FILE: recommendations.dfy ===
/** The recommendations screen: a case-insensitive search over the career catalogue,
    the match-score colour band of each card, the save toggle and opening a career. */
module Recommendations {
  import opened Wrappers
  import opened Text
  import opened AppData
  import opened AppContext
  import Seqs

  /** The search test for one career: the lowercased term occurs in the lowercased
      title, company or one of the tags. */
  predicate CareerMatches(c: Career, term: string) {
    var t := Lower(term);
    || Contains(Lower(c.title), t)
    || Contains(Lower(c.company), t)
    || exists tag :: tag in c.tags && Contains(Lower(tag), t)
  }

  /** `careers.filter(...)`: the matching careers, in catalogue order. */
  function SearchCareers(cs: seq<Career>, term: string): (r: seq<Career>)
    ensures forall c :: c in r <==> c in cs && CareerMatches(c, term)
    ensures Seqs.IsSubsequence(r, cs)
    ensures |r| == Seqs.Count((c: Career) => CareerMatches(c, term), cs)
  {
    Seqs.FilterIsSubsequence((c: Career) => CareerMatches(c, term), cs);
    Seqs.FilterLength((c: Career) => CareerMatches(c, term), cs);
    Seqs.Filter((c: Career) => CareerMatches(c, term), cs)
  }

  /** The screen's own state: the search box and the list on display. */
  datatype Listing = Listing(searchTerm: string, filtered: seq<Career>)

  function InitialListing(): Listing {
    Listing("", Careers)
  }

  /** `handleSearch`: record the term and filter the whole catalogue again. */
  function HandleSearch(l: Listing, term: string): (r: Listing)
    ensures r.searchTerm == term
    ensures forall c :: c in r.filtered <==> c in Careers && CareerMatches(c, term)
    ensures Seqs.IsSubsequence(r.filtered, Careers)
  {
    Listing(term, SearchCareers(Careers, term))
  }

  /** Each search starts from the full catalogue, not from the previous result: what
      is shown depends on the last term alone. */
  lemma SearchForgetsPrevious(l: Listing, m: Listing, term: string)
    ensures HandleSearch(l, term) == HandleSearch(m, term)
  {
  }

  /** Narrowing and widening again: searching, then searching for something else,
      is the same as searching for the second term directly. */
  lemma SearchTwice(l: Listing, first: string, second: string)
    ensures HandleSearch(HandleSearch(l, first), second) == HandleSearch(l, second)
  {
  }

  /** An empty term shows every career, in order. */
  lemma EmptySearchShowsAll(l: Listing)
    ensures HandleSearch(l, "").filtered == Careers
  {
    forall i | 0 <= i < |Careers| ensures CareerMatches(Careers[i], "") {
      ContainsEmpty(Lower(Careers[i].title));
    }
    Seqs.FilterKeepsAll((c: Career) => CareerMatches(c, ""), Careers);
  }

  lemma LowerTech()
    ensures Lower("Tech") == "tech" && Lower("tech") == "tech"
  {
  }

  /** Every career carries the tag "Tech", so searching "tech" keeps the whole
      catalogue. */
  lemma TechSearchKeepsAll()
    ensures SearchCareers(Careers, "tech") == Careers
  {
    CareersAllTech();
    LowerTech();
    assert OccursAt("tech", "tech", 0);
    forall i | 0 <= i < |Careers| ensures CareerMatches(Careers[i], "tech") {
      assert Careers[i].tags[1] in Careers[i].tags;
    }
    Seqs.FilterKeepsAll((c: Career) => CareerMatches(c, "tech"), Careers);
  }

  /** The "N found" badge. */
  function FoundCount(l: Listing): nat {
    |l.filtered|
  }

  /** After a search the badge shows how many careers of the catalogue match. */
  lemma FoundCountAfterSearch(l: Listing, term: string)
    ensures FoundCount(HandleSearch(l, term)) == Seqs.Count((c: Career) => CareerMatches(c, term), Careers)
    ensures FoundCount(HandleSearch(l, term)) <= |Careers|
  {
  }

  /** The colour of the dot next to the match score. */
  datatype Band = Green | Yellow | Orange

  /** `match >= 90 ? green : match >= 80 ? yellow : orange`. */
  function MatchBand(score: int): (b: Band)
    ensures b == Green <==> score >= 90
    ensures b == Yellow <==> 80 <= score < 90
    ensures b == Orange <==> score < 80
  {
    if score >= 90 then Green else if score >= 80 then Yellow else Orange
  }

  function BandRank(b: Band): nat {
    match b
    case Orange => 0
    case Yellow => 1
    case Green => 2
  }

  /** A higher match never gets a lower band. */
  lemma MatchBandMonotone(a: int, b: int)
    requires a <= b
    ensures BandRank(MatchBand(a)) <= BandRank(MatchBand(b))
  {
  }

  /** The catalogue's bands: green, yellow, yellow, orange. */
  lemma CatalogueBands()
    ensures MatchBand(Careers[0].matchScore) == Green
    ensures MatchBand(Careers[1].matchScore) == Yellow
    ensures MatchBand(Careers[2].matchScore) == Yellow
    ensures MatchBand(Careers[3].matchScore) == Orange
  {
    CareersShape();
  }

  /** The heart is filled when the career is saved. */
  predicate IsSaved(s: Session, c: Career) {
    c.id in s.savedCareers
  }

  /** The heart button toggles the saved state of its career and of no other. */
  function ClickHeart(s: Session, c: Career): (r: Session)
    ensures IsSaved(r, c) <==> !IsSaved(s, c)
    ensures forall d: Career :: d.id != c.id ==> (IsSaved(r, d) <==> IsSaved(s, d))
    ensures r.(savedCareers := s.savedCareers) == s
  {
    ToggleSavedCareer(s, c.id)
  }

  /** `handleCareerClick`: select the career, then open its detail screen. */
  function OpenCareer(s: Session, c: Career): (r: Session)
    ensures r.selectedCareer == Some(c)
    ensures r.currentScreen == CareerDetail
    ensures r.navigationHistory == s.navigationHistory + [CareerDetail]
    ensures Valid(r)
    ensures r.(selectedCareer := s.selectedCareer, currentScreen := s.currentScreen,
               navigationHistory := s.navigationHistory) == s
  {
    Navigate(SetSelectedCareer(s, Some(c)), CareerDetail)
  }

  /** Going back from the detail screen returns to where the click happened, with the
      career still selected. */
  lemma OpenCareerThenBack(s: Session, c: Career)
    requires Valid(s)
    ensures GoBack(OpenCareer(s, c)) == SetSelectedCareer(s, Some(c))
  {
    NavigateThenGoBack(SetSelectedCareer(s, Some(c)), CareerDetail);
  }
}

=== FILE: registry.dfy ===
/** The screen registry of the application shell: the component shown for each
    screen tag, and the navigation requests each registered component can issue. */
module Registry {
  import opened Wrappers
  import opened AppContext

  /** What the registry can hold: the four real screens and the inert
      "Coming Soon" placeholders. */
  datatype Component =
    | OnboardingScreen
    | HomeScreen
    | TestScreen
    | RecommendationsScreen
    | ComingSoon(caption: string)

  /** The tags that have an entry in the registry. */
  const Registered: set<Screen> :=
    {Onboarding, Home, Test, Recommendations, CareerDetail, SkillGap, Mentorship, Progress}

  /** `screens[currentScreen]`: the registered component, or nothing for a tag the
      registry lacks. */
  function Lookup(screen: Screen): (c: Option<Component>)
    ensures c.Some? <==> screen in Registered
    ensures c.Some? && screen !in {Onboarding, Home, Test, Recommendations} ==> c.value.ComingSoon?
  {
    match screen
    case Onboarding => Some(OnboardingScreen)
    case Home => Some(HomeScreen)
    case Test => Some(TestScreen)
    case Recommendations => Some(RecommendationsScreen)
    case CareerDetail => Some(ComingSoon("Career Detail"))
    case SkillGap => Some(ComingSoon("Skill Gap"))
    case Mentorship => Some(ComingSoon("Mentorship"))
    case Progress => Some(ComingSoon("Progress"))
    case _ => None
  }

  /** What the shell renders for a session. */
  function Rendered(s: Session): Option<Component> {
    Lookup(s.currentScreen)
  }

  /** Four valid screen tags have no registry entry: looking them up yields nothing. */
  lemma LookupIsPartial()
    ensures Lookup(Notifications) == None && Lookup(AiAdvisor) == None
    ensures Lookup(JobTracker) == None && Lookup(Analytics) == None
  {
  }

  /** The rendered component is a function of the current screen alone. */
  lemma RenderedDependsOnlyOnCurrentScreen(s: Session, t: Session)
    requires s.currentScreen == t.currentScreen
    ensures Rendered(s) == Rendered(t)
  {
  }

  /** The navigation targets a registered component can request: its own buttons,
      its header's back arrow (which pushes its `backScreen`) and the bottom
      navigation bar it includes. The placeholders request nothing. */
  function Targets(c: Component): set<Screen> {
    match c
    case OnboardingScreen => {Home}
    case HomeScreen => {Test, Recommendations, Mentorship, SkillGap, Progress} + BottomBar
    case TestScreen => {Recommendations, Home}
    case RecommendationsScreen => {CareerDetail, Home} + BottomBar
    case ComingSoon(_) => {}
  }

  /** The bottom navigation bar's targets. */
  const BottomBar: set<Screen> := {Home, Recommendations, Progress}

  /** A user action on the shell: a navigation request, or `goBack` (which no shown
      component calls, but which is harmless to allow). */
  datatype Step = Push(target: Screen) | Pop

  /** The step can be issued from what is on display. */
  predicate Allowed(s: Session, step: Step) {
    match step
    case Push(t) => Rendered(s).Some? && t in Targets(Rendered(s).value)
    case Pop => true
  }

  function Apply(s: Session, step: Step): Session {
    match step
    case Push(t) => Navigate(s, t)
    case Pop => GoBack(s)
  }

  /** Every step of `steps` is allowed in the state it is taken from. */
  predicate AllowedRun(s: Session, steps: seq<Step>)
    decreases |steps|
  {
    steps == [] || (Allowed(s, steps[0]) && AllowedRun(Apply(s, steps[0]), steps[1..]))
  }

  function Run(s: Session, steps: seq<Step>): Session
    decreases |steps|
  {
    if steps == [] then s else Run(Apply(s, steps[0]), steps[1..])
  }

  /** Every entry of the history is a registered tag. */
  predicate AllRegistered(s: Session) {
    forall i :: 0 <= i < |s.navigationHistory| ==> s.navigationHistory[i] in Registered
  }

  /** One allowed step keeps the history inside the registry. */
  lemma StepStaysRegistered(s: Session, step: Step)
    requires Valid(s) && AllRegistered(s) && Allowed(s, step)
    ensures Valid(Apply(s, step)) && AllRegistered(Apply(s, step))
  {
    match step
    case Push(t) =>
      assert t in Registered;
      var h := s.navigationHistory + [t];
      assert forall i :: 0 <= i < |h| ==> h[i] in Registered by {
        forall i | 0 <= i < |h| ensures h[i] in Registered {
          if i < |s.navigationHistory| {
            assert h[i] == s.navigationHistory[i];
          }
        }
      }
    case Pop =>
  }

  /** Starting anywhere inside the registry, the navigation requests the registered
      components can issue never reach a tag without an entry: the shell always has
      something to render. */
  lemma {:induction false} RunStaysRegistered(s: Session, steps: seq<Step>)
    requires Valid(s) && AllRegistered(s) && AllowedRun(s, steps)
    ensures Valid(Run(s, steps)) && AllRegistered(Run(s, steps))
    ensures Rendered(Run(s, steps)).Some?
    decreases |steps|
  {
    if steps == [] {
      assert s.currentScreen == s.navigationHistory[|s.navigationHistory| - 1];
    } else {
      StepStaysRegistered(s, steps[0]);
      RunStaysRegistered(Apply(s, steps[0]), steps[1..]);
    }
  }

  /** In particular, from the initial session. */
  lemma ReachableScreensAreRegistered(steps: seq<Step>)
    requires AllowedRun(Initial(), steps)
    ensures Run(Initial(), steps).currentScreen in Registered
  {
    RunStaysRegistered(Initial(), steps);
  }
}

=== FILE: seqs.dfy ===
/** Sequence operations the screens use over and over: JavaScript's
    `Array.prototype.filter`, the length of a filter (a count), and the facts that
    relate them. */
module Seqs {

  /** The elements of `s` that satisfy `p`, in their original order. */
  function Filter<T(==,!new)>(p: T -> bool, s: seq<T>): (r: seq<T>)
    ensures |r| <= |s|
    ensures forall x :: x in r <==> x in s && p(x)
    decreases |s|
  {
    if s == [] then []
    else if p(s[0]) then [s[0]] + Filter(p, s[1..])
    else Filter(p, s[1..])
  }

  /** The number of elements of `s` that satisfy `p`. */
  function Count<T>(p: T -> bool, s: seq<T>): (n: nat)
    decreases |s|
  {
    if s == [] then 0 else (if p(s[0]) then 1 else 0) + Count(p, s[1..])
  }

  /** `a` can be obtained from `b` by deleting elements: it keeps `b`'s order. */
  predicate IsSubsequence<T(==)>(a: seq<T>, b: seq<T>)
    decreases |b|
  {
    if a == [] then true
    else if b == [] then false
    else if a[0] == b[0] then IsSubsequence(a[1..], b[1..])
    else IsSubsequence(a, b[1..])
  }

  /** No element occurs twice. */
  predicate NoDuplicates<T(==)>(s: seq<T>) {
    forall i, j :: 0 <= i < j < |s| ==> s[i] != s[j]
  }

  /** The length of a filter is the count of its predicate. */
  lemma {:induction false} FilterLength<T(!new)>(p: T -> bool, s: seq<T>)
    ensures |Filter(p, s)| == Count(p, s)
    decreases |s|
  {
    if s != [] {
      FilterLength(p, s[1..]);
    }
  }

  /** Every element of a filter satisfies its predicate, position by position. */
  lemma {:induction false} FilterAllSatisfy<T(!new)>(p: T -> bool, s: seq<T>)
    ensures forall i :: 0 <= i < |Filter(p, s)| ==> p(Filter(p, s)[i])
  {
    forall i | 0 <= i < |Filter(p, s)| ensures p(Filter(p, s)[i]) {
      assert Filter(p, s)[i] in Filter(p, s);
    }
  }

  /** Filtering keeps the original order. */
  lemma {:induction false} FilterIsSubsequence<T(!new)>(p: T -> bool, s: seq<T>)
    ensures IsSubsequence(Filter(p, s), s)
    decreases |s|
  {
    if s != [] {
      FilterIsSubsequence(p, s[1..]);
      if !p(s[0]) {
        SubsequenceDropFront(Filter(p, s[1..]), s);
      }
    }
  }

  /** A subsequence of the tail of `b` is a subsequence of `b`. */
  lemma {:induction false} SubsequenceDropFront<T>(a: seq<T>, b: seq<T>)
    requires b != []
    requires IsSubsequence(a, b[1..])
    ensures IsSubsequence(a, b)
    decreases |b|, 0
  {
    if a != [] && a[0] == b[0] {
      SubsequenceTail(a, b[1..]);
    }
  }

  /** Dropping the head of a subsequence leaves a subsequence. */
  lemma {:induction false} SubsequenceTail<T>(a: seq<T>, b: seq<T>)
    requires a != []
    requires IsSubsequence(a, b)
    ensures IsSubsequence(a[1..], b)
    decreases |b|, 1
  {
    if a[0] == b[0] {
      SubsequenceDropFront(a[1..], b);
    } else {
      SubsequenceTail(a, b[1..]);
      SubsequenceDropFront(a[1..], b);
    }
  }

  /** A filter whose predicate holds everywhere returns its input unchanged. */
  lemma {:induction false} FilterKeepsAll<T(!new)>(p: T -> bool, s: seq<T>)
    requires forall i :: 0 <= i < |s| ==> p(s[i])
    ensures Filter(p, s) == s
    decreases |s|
  {
    if s != [] {
      FilterKeepsAll(p, s[1..]);
    }
  }

  /** Filtering distributes over concatenation. */
  lemma {:induction false} FilterAppend<T(!new)>(p: T -> bool, a: seq<T>, b: seq<T>)
    ensures Filter(p, a + b) == Filter(p, a) + Filter(p, b)
    decreases |a|
  {
    if a == [] {
      assert a + b == b;
    } else {
      assert (a + b)[1..] == a[1..] + b;
      FilterAppend(p, a[1..], b);
    }
  }

  /** A filter of a duplicate-free sequence is duplicate-free. */
  lemma {:induction false} FilterNoDuplicates<T(!new)>(p: T -> bool, s: seq<T>)
    requires NoDuplicates(s)
    ensures NoDuplicates(Filter(p, s))
    decreases |s|
  {
    if s != [] {
      assert NoDuplicates(s[1..]) by {
        forall i, j | 0 <= i < j < |s[1..]| ensures s[1..][i] != s[1..][j] {
          assert s[1..][i] == s[i + 1] && s[1..][j] == s[j + 1];
        }
      }
      FilterNoDuplicates(p, s[1..]);
      if p(s[0]) {
        var r := Filter(p, s[1..]);
        assert s[0] !in s[1..] by {
          forall k | 0 <= k < |s[1..]| ensures s[1..][k] != s[0] {
            assert s[1..][k] == s[k + 1];
          }
        }
        assert s[0] !in r;
        forall i, j | 0 <= i < j < |[s[0]] + r| ensures ([s[0]] + r)[i] != ([s[0]] + r)[j] {
          if i == 0 {
            assert ([s[0]] + r)[j] == r[j - 1];
            assert r[j - 1] in r;
          } else {
            assert ([s[0]] + r)[i] == r[i - 1] && ([s[0]] + r)[j] == r[j - 1];
          }
        }
      }
    }
  }

  /** The count of a disjunction of two predicates that never hold together is the sum
      of their counts. */
  lemma {:induction false} CountDisjoint<T>(p: T -> bool, q: T -> bool, pq: T -> bool, s: seq<T>)
    requires forall x :: pq(x) == (p(x) || q(x))
    requires forall x :: !(p(x) && q(x))
    ensures Count(pq, s) == Count(p, s) + Count(q, s)
    decreases |s|
  {
    if s != [] {
      CountDisjoint(p, q, pq, s[1..]);
    }
  }

  /** Every element satisfies exactly one of two complementary predicates, so their
      counts add up to the length. */
  lemma {:induction false} CountComplement<T>(p: T -> bool, q: T -> bool, s: seq<T>)
    requires forall x :: q(x) == !p(x)
    ensures Count(p, s) + Count(q, s) == |s|
    decreases |s|
  {
    if s != [] {
      CountComplement(p, q, s[1..]);
    }
  }

  /** Counting over a concatenation adds the counts of the parts. */
  lemma {:induction false} CountAppend<T>(p: T -> bool, a: seq<T>, b: seq<T>)
    ensures Count(p, a + b) == Count(p, a) + Count(p, b)
    decreases |a|
  {
    if a == [] {
      assert a + b == b;
    } else {
      CountAppend(p, a[1..], b);
      assert (a + b)[0] == a[0];
      assert (a + b)[1..] == a[1..] + b;
    }
  }

  /** Filters with predicates that agree everywhere agree. */
  lemma {:induction false} FilterCongruent<T(!new)>(p: T -> bool, q: T -> bool, s: seq<T>)
    requires forall x :: p(x) == q(x)
    ensures Filter(p, s) == Filter(q, s)
    decreases |s|
  {
    if s != [] {
      FilterCongruent(p, q, s[1..]);
    }
  }

  /** What the filter keeps of one element. */
  function Keep<T>(p: T -> bool, x: T): seq<T> {
    if p(x) then [x] else []
  }

  /** One step of the filter. */
  lemma FilterStep<T(!new)>(p: T -> bool, s: seq<T>)
    requires s != []
    ensures Filter(p, s) == Keep(p, s[0]) + Filter(p, s[1..])
  {
  }

  /** The filter of a one-element sequence. */
  lemma FilterOfOne<T(!new)>(p: T -> bool, s: seq<T>)
    requires |s| == 1
    ensures Filter(p, s) == Keep(p, s[0])
  {
    assert s[1..] == [];
    FilterStep(p, s);
  }

  /** The filter of a two-element sequence, element by element. */
  lemma FilterOfTwo<T(!new)>(p: T -> bool, s: seq<T>)
    requires |s| == 2
    ensures Filter(p, s) == Keep(p, s[0]) + Keep(p, s[1])
  {
    var t := s[1..];
    assert t[0] == s[1];
    FilterStep(p, s);
    FilterOfOne(p, t);
  }

  /** The filter of a three-element sequence, element by element. */
  lemma FilterOfThree<T(!new)>(p: T -> bool, s: seq<T>)
    requires |s| == 3
    ensures Filter(p, s) == Keep(p, s[0]) + (Keep(p, s[1]) + Keep(p, s[2]))
  {
    var t := s[1..];
    assert t[0] == s[1] && t[1] == s[2];
    FilterStep(p, s);
    FilterOfTwo(p, t);
  }

  /** The filter of a four-element sequence, element by element. */
  lemma FilterOfFour<T(!new)>(p: T -> bool, s: seq<T>)
    requires |s| == 4
    ensures Filter(p, s) == Keep(p, s[0]) + (Keep(p, s[1]) + (Keep(p, s[2]) + Keep(p, s[3])))
  {
    var t := s[1..];
    assert t[0] == s[1] && t[1] == s[2] && t[2] == s[3];
    FilterStep(p, s);
    FilterOfThree(p, t);
  }
}

=== FILE: social_sharing.dfy ===
/** Social sharing: the per-platform share text, the choice between the native share
    sheet, a share window and nothing, and the hook that opens and closes the share
    panel. */
module SocialSharing {
  import opened Wrappers
  import opened Text

  datatype ContentType =
    | AchievementContent | ProgressContent | MilestoneContent | CareerMatchContent | SkillProgressContent

  /** What is shared. The optional statistics and image are not used by any of the
      modelled operations and are not modelled. */
  datatype ShareableContent = ShareableContent(
    kind: ContentType,
    title: string,
    description: string,
    url: Option<string>)

  const Hashtags: string := "#CareerGrowth" + " #ProfessionalDevelopment" + " #CareerCompass"

  /** `customMessage || content.description`. */
  function BaseText(content: ShareableContent, customMessage: string): (b: string)
    ensures customMessage != "" ==> b == customMessage
    ensures customMessage == "" ==> b == content.description
  {
    if customMessage != "" then customMessage else content.description
  }

  /** `content.url || ""`. */
  function UrlText(content: ShareableContent): (u: string)
    ensures content.url.Some? ==> u == content.url.value
    ensures content.url.None? ==> u == ""
  {
    content.url.GetOr("")
  }

  /** `generateShareText(platform)`. */
  function ShareText(content: ShareableContent, customMessage: string, platform: string): (r: string)
    ensures |r| >= |BaseText(content, customMessage)|
    ensures r[..|BaseText(content, customMessage)|] == BaseText(content, customMessage)
    ensures platform !in {"twitter", "linkedin", "facebook", "instagram"} ==> r == BaseText(content, customMessage)
  {
    var base := BaseText(content, customMessage);
    var url := UrlText(content);
    if platform == "twitter" then
      assert (base + " " + Hashtags + " " + url)[..|base|] == base;
      base + " " + Hashtags + " " + url
    else if platform == "linkedin" then
      assert (base + "\n\n" + url)[..|base|] == base;
      base + "\n\n" + url
    else if platform == "facebook" then
      assert (base + " " + url)[..|base|] == base;
      base + " " + url
    else if platform == "instagram" then
      assert (base + "\n\n" + Hashtags)[..|base|] == base;
      base + "\n\n" + Hashtags
    else
      base
  }

  /** The Instagram text never mentions the link: it is the same whatever the URL. */
  lemma InstagramIgnoresUrl(content: ShareableContent, customMessage: string, url: Option<string>)
    ensures ShareText(content.(url := url), customMessage, "instagram") == ShareText(content, customMessage, "instagram")
  {
  }

  /** The LinkedIn and Facebook texts carry no hashtags of their own: unless the message
      or the link has a "#", the hashtag line does not occur in them. */
  lemma LinkedInFacebookOmitHashtags(content: ShareableContent, customMessage: string, platform: string)
    requires platform == "linkedin" || platform == "facebook"
    requires '#' !in BaseText(content, customMessage) && '#' !in UrlText(content)
    ensures !Contains(ShareText(content, customMessage, platform), Hashtags)
  {
    var base := BaseText(content, customMessage);
    var url := UrlText(content);
    var r := ShareText(content, customMessage, platform);
    assert '#' !in r by {
      if platform == "linkedin" {
        assert r == base + "\n\n" + url;
      } else {
        assert r == base + " " + url;
      }
    }
    assert Hashtags[0] == '#';
    MissingCharExcludes(r, Hashtags, 0);
  }

  /** The Twitter and Instagram texts carry the hashtags right after the message and a
      separator. */
  lemma TwitterInstagramCarryHashtags(content: ShareableContent, customMessage: string)
    ensures OccursAt(ShareText(content, customMessage, "twitter"), Hashtags, |BaseText(content, customMessage)| + 1)
    ensures OccursAt(ShareText(content, customMessage, "instagram"), Hashtags, |BaseText(content, customMessage)| + 2)
  {
  }

  /** `copyToClipboard` asks for the text of the platform "copy", which falls through to
      the default: the message alone. */
  function CopyText(content: ShareableContent, customMessage: string): (r: string)
    ensures r == BaseText(content, customMessage)
  {
    ShareText(content, customMessage, "copy")
  }

  /** The platforms with a share window. */
  const ShareSites: set<string> := {"twitter", "linkedin", "facebook", "instagram"}

  /** What `shareToSocial` does: the native share sheet (with title, text and link),
      a share window for one of the four sites (its URL, built with
      `encodeURIComponent`, is not modelled), or nothing. */
  datatype ShareAction =
    | NativeShare(title: string, text: string, url: string)
    | OpenWindow(site: string)
    | NoShare

  /** `content.url || window.location.href`, with the page address as a parameter. */
  function LinkOf(content: ShareableContent, href: string): (u: string)
    ensures content.url.Some? && content.url.value != "" ==> u == content.url.value
    ensures content.url.None? || content.url.value == "" ==> u == href
  {
    if content.url.Some? && content.url.value != "" then content.url.value else href
  }

  /** `shareToSocial(platform)`; `nativeAvailable` says whether `navigator.share`
      exists. */
  function ShareToSocial(content: ShareableContent, customMessage: string, platform: string,
                         href: string, nativeAvailable: bool): (a: ShareAction)
    ensures a.NativeShare? <==> platform == "native" && nativeAvailable
    ensures a.OpenWindow? <==> platform in ShareSites
    ensures a.NoShare? <==> platform !in ShareSites && !(platform == "native" && nativeAvailable)
    ensures a.NativeShare? ==>
      a == NativeShare(content.title, BaseText(content, customMessage), LinkOf(content, href))
    ensures a.OpenWindow? ==> a.site == platform
  {
    if platform == "native" && nativeAvailable then
      NativeShare(content.title, ShareText(content, customMessage, platform), LinkOf(content, href))
    else if platform in ShareSites then
      OpenWindow(platform)
    else
      NoShare
  }

  /** Without `navigator.share` the native button does nothing: "native" has no share
      window. */
  lemma NativeWithoutSupportDoesNothing(content: ShareableContent, customMessage: string, href: string)
    ensures ShareToSocial(content, customMessage, "native", href, false) == NoShare
  {
  }

  /** The state `useSocialSharing` keeps. */
  datatype SharingHook = SharingHook(isSharing: bool, shareContent: Option<ShareableContent>)

  function InitialHook(): SharingHook {
    SharingHook(false, None)
  }

  /** `shareAchievement`, `shareProgress`, `shareMilestone`, `shareCareerMatch` and
      `shareSkillProgress`, which differ only in the content type they record: open the
      panel on content that links to the current page `href`. */
  function OpenShare(h: SharingHook, kind: ContentType, title: string, description: string, href: string)
    : (r: SharingHook)
    ensures r.isSharing
    ensures r.shareContent == Some(ShareableContent(kind, title, description, Some(href)))
  {
    SharingHook(true, Some(ShareableContent(kind, title, description, Some(href))))
  }

  /** `closeSharing`. */
  function CloseSharing(h: SharingHook): (r: SharingHook)
    ensures !r.isSharing && r.shareContent == None
  {
    SharingHook(false, None)
  }

  /** The panel is open exactly when there is content to share, whatever is called in
      whatever order. */
  predicate OpenIffContent(h: SharingHook) {
    h.isSharing <==> h.shareContent.Some?
  }

  lemma HookKeepsOpenIffContent(h: SharingHook, kind: ContentType, title: string, description: string, href: string)
    ensures OpenIffContent(InitialHook())
    ensures OpenIffContent(OpenShare(h, kind, title, description, href))
    ensures OpenIffContent(CloseSharing(h))
  {
  }

  /** Closing forgets what was shared: open then close is back to the start, and a
      second share replaces the first. */
  lemma OpenThenClose(h: SharingHook, kind: ContentType, title: string, description: string, href: string)
    ensures CloseSharing(OpenShare(h, kind, title, description, href)) == InitialHook()
  {
  }

  lemma SecondShareReplacesFirst(h: SharingHook, k1: ContentType, t1: string, d1: string,
                                 k2: ContentType, t2: string, d2: string, href: string)
    ensures OpenShare(OpenShare(h, k1, t1, d1, href), k2, t2, d2, href) == OpenShare(h, k2, t2, d2, href)
  {
  }

  /** Content shared through the hook carries the page address, so its LinkedIn text
      ends with it. */
  lemma HookContentLinksToPage(h: SharingHook, kind: ContentType, title: string, description: string,
                               href: string, customMessage: string)
    ensures var c := OpenShare(h, kind, title, description, href).shareContent.value;
      ShareText(c, customMessage, "linkedin") == BaseText(c, customMessage) + "\n\n" + href
  {
  }
}

=== FILE: test_stepper.dfy ===
/** The personality quiz: Next and Previous over the fixed question list, with the
    selected option restored from the stored answers and a final transition that
    records progress and opens the recommendations. */
module TestStepper {
  import opened Wrappers
  import opened AppData
  import opened AppContext

  /** The quiz's length, `questions.length`. */
  const QuestionCount: nat := |Questions|

  lemma QuestionCountIsFive()
    ensures QuestionCount == 5
  {
    QuestionsShape();
  }

  /** The shared session together with the screen's own selected option. */
  datatype Quiz = Quiz(session: Session, selectedAnswer: string)

  /** Mounting the screen: the selection starts as the stored answer for the current
      question, or empty. */
  function Mount(s: Session): (q: Quiz)
    ensures q.session == s
    ensures q.selectedAnswer == StoredAnswer(s.testAnswers, s.currentQuestion)
  {
    Quiz(s, StoredAnswer(s.testAnswers, s.currentQuestion))
  }

  /** Picking an option in the radio group. */
  function Choose(q: Quiz, option: string): Quiz {
    q.(selectedAnswer := option)
  }

  /** `handleNext`. */
  function Next(q: Quiz): (r: Quiz)
    ensures q.selectedAnswer == "" ==> r == q
    ensures q.selectedAnswer != "" ==>
      StoredAnswer(r.session.testAnswers, q.session.currentQuestion) == q.selectedAnswer
    ensures q.selectedAnswer != "" ==> forall i: nat :: i != q.session.currentQuestion ==>
      StoredAnswer(r.session.testAnswers, i) == StoredAnswer(q.session.testAnswers, i)
    ensures q.selectedAnswer != "" && q.session.currentQuestion + 1 < QuestionCount ==>
      && r.session.currentQuestion == q.session.currentQuestion + 1
      && r.selectedAnswer == StoredAnswer(q.session.testAnswers, q.session.currentQuestion + 1)
      && r.session.(currentQuestion := q.session.currentQuestion,
                    testAnswers := q.session.testAnswers) == q.session
    ensures q.selectedAnswer != "" && q.session.currentQuestion + 1 >= QuestionCount ==>
      && r.session.currentQuestion == q.session.currentQuestion
      && r.session.userProgress == 85
      && r.session.currentScreen == Recommendations
      && r.session.navigationHistory == q.session.navigationHistory + [Recommendations]
      && r.session.(userProgress := q.session.userProgress, currentScreen := q.session.currentScreen,
                    navigationHistory := q.session.navigationHistory,
                    testAnswers := q.session.testAnswers) == q.session
      && r.selectedAnswer == q.selectedAnswer
  {
    if q.selectedAnswer == "" then q
    else
      var s := AddTestAnswer(q.session, q.selectedAnswer);
      var cur := q.session.currentQuestion;
      if cur + 1 < QuestionCount then
        Quiz(SetCurrentQuestion(s, cur + 1), StoredAnswer(q.session.testAnswers, cur + 1))
      else
        q.(session := Navigate(UpdateProgress(s, 85), Recommendations))
  }

  /** `handlePrevious`. */
  function Previous(q: Quiz): (r: Quiz)
    ensures q.session.currentQuestion == 0 ==> r == q
    ensures q.session.currentQuestion > 0 ==>
      && r.session == q.session.(currentQuestion := q.session.currentQuestion - 1)
      && r.selectedAnswer == StoredAnswer(q.session.testAnswers, q.session.currentQuestion - 1)
  {
    if q.session.currentQuestion > 0 then
      Quiz(SetCurrentQuestion(q.session, q.session.currentQuestion - 1),
           StoredAnswer(q.session.testAnswers, q.session.currentQuestion - 1))
    else q
  }

  /** What the user can do on the quiz screen. */
  datatype Move = Pick(option: string) | NextMove | PreviousMove

  function Step(q: Quiz, m: Move): Quiz {
    match m
    case Pick(o) => Choose(q, o)
    case NextMove => Next(q)
    case PreviousMove => Previous(q)
  }

  function Play(q: Quiz, moves: seq<Move>): Quiz
    decreases |moves|
  {
    if moves == [] then q else Play(Step(q, moves[0]), moves[1..])
  }

  /** Whatever the user does, the question index stays within the question list. */
  lemma {:induction false} IndexStaysInRange(q: Quiz, moves: seq<Move>)
    requires q.session.currentQuestion < QuestionCount
    ensures Play(q, moves).session.currentQuestion < QuestionCount
    decreases |moves|
  {
    if moves != [] {
      IndexStaysInRange(Step(q, moves[0]), moves[1..]);
    }
  }

  /** In particular from a freshly started quiz. */
  lemma IndexStaysInRangeFromStart(moves: seq<Move>)
    ensures Play(Mount(Initial()), moves).session.currentQuestion < QuestionCount
  {
    QuestionCountIsFive();
    IndexStaysInRange(Mount(Initial()), moves);
  }

  /** Picking an option and pressing Next, once for each selection in turn. */
  function AnswerInTurn(q: Quiz, selections: seq<string>): Quiz
    decreases |selections|
  {
    if selections == [] then q else AnswerInTurn(Next(Choose(q, selections[0])), selections[1..])
  }

  /** The stored answers are exactly `done`, one per slot. */
  predicate AnswersAre(answers: seq<Answer>, done: seq<string>) {
    |answers| == |done| && forall i :: 0 <= i < |done| ==> answers[i] == Some(done[i])
  }

  /** The inductive step of answering in turn: after `done` has been answered and
      the rest follows, the answers are all of them, in order. */
  lemma {:induction false} AnswerInTurnFrom(q: Quiz, done: seq<string>, rest: seq<string>)
    requires q.session.currentQuestion == |done|
    requires AnswersAre(q.session.testAnswers, done)
    requires |done| + |rest| == QuestionCount && |rest| >= 1
    requires forall i :: 0 <= i < |rest| ==> rest[i] != ""
    ensures AnswersAre(AnswerInTurn(q, rest).session.testAnswers, done + rest)
    ensures AnswerInTurn(q, rest).session.currentScreen == Recommendations
    ensures AnswerInTurn(q, rest).session.userProgress == 85
    ensures AnswerInTurn(q, rest).session.navigationHistory == q.session.navigationHistory + [Recommendations]
    decreases |rest|
  {
    var c := Choose(q, rest[0]);
    var n := Next(c);
    var s := q.session;
    assert AnswersAre(n.session.testAnswers, done + [rest[0]]) by {
      var a := SetAnswer(s.testAnswers, |done|, rest[0]);
      assert n.session.testAnswers == a;
      forall i | 0 <= i < |done| + 1 ensures a[i] == Some((done + [rest[0]])[i]) {
        if i < |done| {
          assert a[i] == s.testAnswers[i];
        }
      }
    }
    if |rest| == 1 {
      assert done + rest == done + [rest[0]];
    } else {
      assert n.session.currentQuestion == |done| + 1;
      assert (done + [rest[0]]) + rest[1..] == done + rest;
      AnswerInTurnFrom(n, done + [rest[0]], rest[1..]);
    }
  }

  /** Answering every question in turn from a fresh quiz stores the selections in
      order, records progress 85 and opens the recommendations. */
  lemma AnswerAllQuestions(selections: seq<string>)
    requires |selections| == QuestionCount
    requires forall i :: 0 <= i < |selections| ==> selections[i] != ""
    ensures AnswersAre(AnswerInTurn(Mount(Initial()), selections).session.testAnswers, selections)
    ensures AnswerInTurn(Mount(Initial()), selections).session.currentScreen == Recommendations
    ensures AnswerInTurn(Mount(Initial()), selections).session.userProgress == 85
  {
    QuestionCountIsFive();
    assert [] + selections == selections;
    AnswerInTurnFrom(Mount(Initial()), [], selections);
  }
}

=== FILE: text.dfy ===
/** The string primitives the screens rely on: JavaScript's `toLowerCase` and
    `toUpperCase` restricted to ASCII letters, `String.prototype.includes`, and the
    whitespace test behind `!s.trim()`. */
module Text {

  predicate IsUpper(c: char) {
    'A' <= c <= 'Z'
  }

  predicate IsLower(c: char) {
    'a' <= c <= 'z'
  }

  function LowerChar(c: char): char {
    if IsUpper(c) then (c as int + 32) as char else c
  }

  function UpperChar(c: char): char {
    if IsLower(c) then (c as int - 32) as char else c
  }

  /** `s.toLowerCase()` on ASCII letters. */
  function Lower(s: string): (r: string)
    ensures |r| == |s|
    ensures forall i :: 0 <= i < |s| ==> r[i] == LowerChar(s[i])
  {
    seq(|s|, i requires 0 <= i < |s| => LowerChar(s[i]))
  }

  /** `s.toUpperCase()` on ASCII letters. */
  function Upper(s: string): (r: string)
    ensures |r| == |s|
    ensures forall i :: 0 <= i < |s| ==> r[i] == UpperChar(s[i])
  {
    seq(|s|, i requires 0 <= i < |s| => UpperChar(s[i]))
  }

  /** `sub` occurs in `s` starting at index `i`. */
  predicate OccursAt(s: string, sub: string, i: int) {
    0 <= i && i + |sub| <= |s| && forall j :: 0 <= j < |sub| ==> s[i + j] == sub[j]
  }

  /** `s.includes(sub)`. */
  predicate Contains(s: string, sub: string) {
    exists i | 0 <= i <= |s| - |sub| :: OccursAt(s, sub, i)
  }

  /** A character `s.trim()` removes: the ECMAScript WhiteSpace and LineTerminator
      code points. */
  predicate IsJsWhitespace(c: char) {
    || c == '\t' || c == '\n' || c == '\U{000B}' || c == '\U{000C}' || c == '\r' || c == ' '
    || c == '\U{00A0}' || c == '\U{1680}' || ('\U{2000}' <= c <= '\U{200A}')
    || c == '\U{2028}' || c == '\U{2029}' || c == '\U{202F}' || c == '\U{205F}'
    || c == '\U{3000}' || c == '\U{FEFF}'
  }

  /** `!s.trim()`: nothing is left once leading and trailing white space is removed. */
  predicate IsBlank(s: string) {
    forall i :: 0 <= i < |s| ==> IsJsWhitespace(s[i])
  }

  /** `s.trimStart()`: drop leading white space. */
  function TrimStart(s: string): (r: string)
    ensures |r| <= |s| && r == s[|s| - |r|..]
    ensures r == [] || !IsJsWhitespace(r[0])
    decreases |s|
  {
    if s != [] && IsJsWhitespace(s[0]) then TrimStart(s[1..]) else s
  }

  /** `s.trimEnd()`: drop trailing white space. */
  function TrimEnd(s: string): (r: string)
    ensures |r| <= |s| && r == s[..|r|]
    ensures r == [] || !IsJsWhitespace(r[|r| - 1])
    decreases |s|
  {
    if s != [] && IsJsWhitespace(s[|s| - 1]) then TrimEnd(s[..|s| - 1]) else s
  }

  /** `s.trim()`: a stretch of `s` that neither starts nor ends with white space. */
  function Trim(s: string): (r: string)
    ensures |r| <= |TrimStart(s)| <= |s|
    ensures r == s[|s| - |TrimStart(s)|..|s| - |TrimStart(s)| + |r|]
    ensures r == [] || (!IsJsWhitespace(r[0]) && !IsJsWhitespace(r[|r| - 1]))
  {
    var t := TrimStart(s);
    var r := TrimEnd(t);
    assert r == [] || r[0] == t[0];
    r
  }

  /** Below a leading white-space character, `s` is blank iff the rest is. */
  lemma BlankAfterFirst(s: string)
    requires s != [] && IsJsWhitespace(s[0])
    ensures IsBlank(s) <==> IsBlank(s[1..])
  {
    if IsBlank(s[1..]) {
      forall i | 0 <= i < |s| ensures IsJsWhitespace(s[i]) {
        if i > 0 {
          assert s[i] == s[1..][i - 1];
        }
      }
    }
  }

  /** Above a trailing white-space character, `s` is blank iff the rest is. */
  lemma BlankBeforeLast(s: string)
    requires s != [] && IsJsWhitespace(s[|s| - 1])
    ensures IsBlank(s) <==> IsBlank(s[..|s| - 1])
  {
    var t := s[..|s| - 1];
    if IsBlank(t) {
      forall i | 0 <= i < |s| ensures IsJsWhitespace(s[i]) {
        if i < |t| {
          assert s[i] == t[i];
        }
      }
    }
  }

  lemma {:induction false} TrimStartEmptyIffBlank(s: string)
    ensures TrimStart(s) == [] <==> IsBlank(s)
    decreases |s|
  {
    if s != [] && IsJsWhitespace(s[0]) {
      TrimStartEmptyIffBlank(s[1..]);
      BlankAfterFirst(s);
    }
  }

  lemma {:induction false} TrimEndEmptyIffBlank(s: string)
    ensures TrimEnd(s) == [] <==> IsBlank(s)
    decreases |s|
  {
    if s != [] && IsJsWhitespace(s[|s| - 1]) {
      TrimEndEmptyIffBlank(s[..|s| - 1]);
      BlankBeforeLast(s);
    }
  }

  /** `trimStart` removes only white space. */
  lemma {:induction false} TrimStartDropsWhitespace(s: string)
    ensures forall i :: 0 <= i < |s| - |TrimStart(s)| ==> IsJsWhitespace(s[i])
    decreases |s|
  {
    if s != [] && IsJsWhitespace(s[0]) {
      TrimStartDropsWhitespace(s[1..]);
      forall i | 0 <= i < |s| - |TrimStart(s)| ensures IsJsWhitespace(s[i]) {
        if i > 0 {
          assert s[i] == s[1..][i - 1];
        }
      }
    }
  }

  /** `trimEnd` removes only white space. */
  lemma {:induction false} TrimEndDropsWhitespace(s: string)
    ensures forall i :: |TrimEnd(s)| <= i < |s| ==> IsJsWhitespace(s[i])
    decreases |s|
  {
    if s != [] && IsJsWhitespace(s[|s| - 1]) {
      var t := s[..|s| - 1];
      TrimEndDropsWhitespace(t);
      forall i | |TrimEnd(s)| <= i < |s| ensures IsJsWhitespace(s[i]) {
        if i < |t| {
          assert s[i] == t[i];
        }
      }
    }
  }

  /** `trim` removes white space at both ends and nothing else: everything before the
      result and everything after it is white space. With the ends of the result not
      being white space, this fixes the result: it runs from the first to the last
      character that is not white space. */
  lemma TrimDropsOnlyWhitespace(s: string)
    ensures forall i :: 0 <= i < |s| - |TrimStart(s)| ==> IsJsWhitespace(s[i])
    ensures forall i :: |s| - |TrimStart(s)| + |Trim(s)| <= i < |s| ==> IsJsWhitespace(s[i])
  {
    TrimStartDropsWhitespace(s);
    var t := TrimStart(s);
    var k := |s| - |t|;
    TrimEndDropsWhitespace(t);
    forall i | k + |Trim(s)| <= i < |s| ensures IsJsWhitespace(s[i]) {
      assert s[i] == t[i - k];
    }
  }

  /** `!s.trim()` holds exactly for the blank strings: trimming leaves nothing iff
      every character is white space. */
  lemma TrimEmptyIffBlank(s: string)
    ensures Trim(s) == [] <==> IsBlank(s)
  {
    TrimStartEmptyIffBlank(s);
    TrimEndEmptyIffBlank(TrimStart(s));
  }

  /** Lowercasing twice is lowercasing once. */
  lemma LowerIdempotent(s: string)
    ensures Lower(Lower(s)) == Lower(s)
  {
  }

  /** Uppercasing does not change what lowercasing produces: the two spellings of a
      word are the same to any comparison made after `toLowerCase`. */
  lemma LowerOfUpper(s: string)
    ensures Lower(Upper(s)) == Lower(s)
  {
    forall i | 0 <= i < |s| ensures Lower(Upper(s))[i] == Lower(s)[i] {
      var c := s[i];
      if IsLower(c) {
        assert UpperChar(c) as int == c as int - 32;
      }
    }
  }

  /** Every string includes the empty string (`"abc".includes("")` is true). */
  lemma ContainsEmpty(s: string)
    ensures Contains(s, "")
  {
    assert OccursAt(s, "", 0);
  }

  /** `includes` is transitive: an occurrence of `mid` in `s` carries every occurrence
      of `sub` in `mid` along. */
  lemma ContainsTransitive(s: string, mid: string, sub: string)
    requires Contains(s, mid) && Contains(mid, sub)
    ensures Contains(s, sub)
  {
    var i :| 0 <= i <= |s| - |mid| && OccursAt(s, mid, i);
    var j :| 0 <= j <= |mid| - |sub| && OccursAt(mid, sub, j);
    assert OccursAt(s, sub, i + j) by {
      forall k | 0 <= k < |sub| ensures s[i + j + k] == sub[k] {
        assert mid[j + k] == sub[k];
        assert s[i + (j + k)] == mid[j + k];
      }
    }
  }

  /** If some character of `sub` never appears in `s`, then `s` does not include `sub`. */
  lemma MissingCharExcludes(s: string, sub: string, k: nat)
    requires k < |sub| && sub[k] !in s
    ensures !Contains(s, sub)
  {
    forall i | 0 <= i <= |s| - |sub| ensures !OccursAt(s, sub, i) {
      assert s[i + k] in s;
    }
  }

  /** A lower-case letter (or a non-letter) missing from `s` in both cases is missing
      from `Lower(s)`. */
  lemma LowerLacks(s: string, c: char)
    requires !IsUpper(c) && c !in s && (IsLower(c) ==> UpperChar(c) !in s)
    ensures c !in Lower(s)
  {
    forall i | 0 <= i < |s| ensures Lower(s)[i] != c {
      assert s[i] in s;
      if IsUpper(s[i]) && IsLower(c) {
        assert UpperChar(c) as int == c as int - 32;
      }
    }
  }

  /** If the character `sub[k]` occurs in `s` exactly once and is not followed there by
      `sub[k + 1]`, then `s` does not include `sub`. */
  lemma SinglePairExcludes(s: string, sub: string, k: nat, before: string, after: string)
    requires k + 1 < |sub|
    requires s == before + [sub[k]] + after
    requires sub[k] !in before && sub[k] !in after
    requires after == [] || after[0] != sub[k + 1]
    ensures !Contains(s, sub)
  {
    forall i | 0 <= i <= |s| - |sub| ensures !OccursAt(s, sub, i) {
      if i + k < |before| {
        assert s[i + k] == before[i + k];
      } else if i + k > |before| {
        assert s[i + k] == after[i + k - |before| - 1];
      } else {
        assert s[i + k + 1] == after[0];
      }
    }
  }
}

=== FILE: wrappers.dfy ===
/** Optional values: the model's stand-in for JavaScript's `null` and `undefined`. */
module Wrappers {

  datatype Option<+T> = None | Some(value: T) {

    /** The wrapped value, or `default` when there is none (JavaScript's `x || default`
        for values that are never falsy when present). */
    function GetOr(default: T): T {
      match this
      case Some(v) => v
      case None => default
    }
  }
}
